=== FILE: README.md ===
# grow-metric-hub, modelled in Dafny

grow-metric-hub is a small business-metrics web front end. A signed-in user keeps a list of
companies and records, for each company, monthly figures:
- revenue (*ricavi*)
- direct costs (*costi diretti*)
- total costs (*costi totali*)
- owner compensation (*compenso imprenditore*)

From these it derives the margin (*margine*) and net income (*utile netto*), and it shows a
dashboard of KPI cards and alerts against targets. All persistence goes through a hosted
record store. The logic worth stating sits in a handful of React components and the one data
hook. This project models that logic as pure Dafny functions and proves what each promises.

| file | module | models |
|---|---|---|
| `wrappers.dfy` | `Wrappers` | `Option`, standing for `undefined`/`null` |
| `text.dfy` | `Text` | the JavaScript string primitives the forms use: `trim`, `includes`, integer `toString`, `parseInt`, `parseFloat`, and `parseFloat(..) \|\| 0` |
| `sorting.dfy` | `Sorting` | what the record store's `eq` filter and `order` clauses return |
| `business_data.dfy` | `BusinessData` | the `useBusinessData` hook: its state, the record store as a concrete in-memory table set, every load/save/update/delete/create operation, and the invariants they keep |
| `data_entry.dfy` | `DataEntry` | the monthly-data form: schema, live margin calculation, submit warnings and payload, month/year pickers |
| `monthly_table.dfy` | `MonthlyTable` | the monthly-data table: inline edit, save with the edit-path formulas, delete, period label |
| `dashboard.dfy` | `Dashboard` | target alerts, the current/previous month pick, totals |
| `metric_card.dfy` | `MetricCard` | trend classification and the target badge/line |
| `company_selector.dfy` | `CompanySelector` | company creation from the dialog, the create-button rule, selection by id |
| `auth.dfy` | `Auth` | the sign-in page's schema, error-message mapping and mode dispatch |

Modelling choices:
- Amounts are `real`. IEEE-754 rounding is not modelled, but the two IEEE outcomes the code
  can reach in the trend formula are: infinity and NaN.
- Row ids are `nat`, and `created_at` is an `int` timestamp.
- The record store is a value of type `Store`. A read or write failure is a flag in a
  `Network` value that each operation receives, so every error path is modelled: "on
  failure nothing changes" is proved, not assumed.
- Store queries are modelled as filtering followed by sorting on the requested key. The
  model promises only the key order, so rows with equal keys may come back in any order.
- The monthly save (src/hooks/useBusinessData.ts:200-211) calls `upsert` with a row that
  carries no id and with no conflict key. Every save therefore inserts a fresh row, and the
  model does not assume one row per period (`BusinessData.SavingAPeriodTwiceKeepsBothRows`).
- The monthly save writes neither `margine` nor `utile_netto`, although the form computes
  them. Rows it creates carry `None` for both.
- `updateCompany` sends an `undefined` description, which the JSON body drops. The stored
  description therefore stays as it was.

## Model

| member | source | states |
|---|---|---|
| `Text.Trim` | src/components/CompanySelector.tsx:29 | `trim` yields the empty string exactly when the text is all ECMAScript whitespace; otherwise the result is a slice of the text that starts and ends with a non-whitespace character, and everything cut off on either side is whitespace |
| `Text.TrimIdempotent` | src/components/CompanySelector.tsx:32 | trimming a trimmed text changes nothing |
| `Text.Contains` | src/pages/Auth.tsx:70-72 | `includes` holds exactly when the phrase occurs at some position of the text |
| `Text.ParseIntRoundTrip` | src/hooks/useBusinessData.ts:205-206 | `parseInt` reads back the decimal text of every integer |
| `Text.ShowAmountRoundTrip` | src/components/forms/MonthlyDataTable.tsx:64-88 | a whole-unit amount written with `toString` reads back as itself through `parseFloat(..) \|\| 0` |
| `Text.ParseIntReadsDigitPrefix` | src/hooks/useBusinessData.ts:205-206 | `parseInt` reads the leading run of decimal digits and ignores whatever follows it |
| `Text.ParseFloatDecimal` | src/components/forms/DataEntryForm.tsx:207 | `parseFloat` of digits, a point and digits (at least one digit in all) is the whole part plus the fraction |
| `Text.NumberOrZero` | src/components/forms/DataEntryForm.tsx:207 | `parseFloat(..) \|\| 0`, as the amount inputs and the table's edit save use it: 0 when the text does not parse, otherwise the parsed number |
| `Text.BlankIsZero` | src/components/forms/MonthlyDataTable.tsx:85-88 | an empty or blank input parses to NaN, so it is stored as 0 |
| `Sorting.SortBy` | src/hooks/useBusinessData.ts:83-84 | an ordered query returns a permutation of the matching rows, sorted by the requested key |
| `Sorting.Filter` | src/hooks/useBusinessData.ts:82 | the `eq` filter keeps every matching row with its multiplicity and nothing else |
| `BusinessData.CompanyList` | src/hooks/useBusinessData.ts:53-56 | the companies query returns every company, newest `created_at` first |
| `BusinessData.MonthlyList` | src/hooks/useBusinessData.ts:79-84 | the monthly query returns exactly the company's rows, in ascending (year, month) order |
| `BusinessData.TargetList` | src/hooks/useBusinessData.ts:101-105 | the targets query returns exactly the company's targets, latest year first |
| `BusinessData.ReloadMonthly` | src/hooks/useBusinessData.ts:77-96 | a successful reload shows exactly the company's stored rows, all of them, in period order; a failed one leaves the state unchanged |
| `BusinessData.ReloadTargets` | src/hooks/useBusinessData.ts:99-117 | the same for targets: all of the company's targets and nothing else, in year-descending order |
| `BusinessData.Select` | src/hooks/useBusinessData.ts:319-325 | choosing a company selects it. Each list is reloaded on its own: a successful monthly read shows exactly that company's rows, and a failed one keeps the old rows; the same holds for targets |
| `BusinessData.LoadCompanies` | src/hooks/useBusinessData.ts:50-74 | the selection changes exactly when the read succeeds, nothing was selected and the list is non-empty; the new selection is a newest company, and its rows and targets are shown for each read that succeeds. Without a selection change the rows and targets stay as they were; a failed read only clears `loading` |
| `BusinessData.FirstLoadSelectsNewest` | src/hooks/useBusinessData.ts:36-74 | from the hook's initial state, the mount-time load of a non-empty company table ends `loading`, selects a newest company, keeps every list in query order, and shows that company's rows when the monthly read succeeds |
| `BusinessData.FirstIsNewest` | src/hooks/useBusinessData.ts:61-62 | the head of the newest-first list is at least as new as every company |
| `BusinessData.SaveMonthlyData` | src/hooks/useBusinessData.ts:183-230 | with no company selected: a warning and no change at all. Success happens exactly when a company is selected, the write succeeds, and month and year parse. The one new row holds the selected company's id, the parsed period and the four amounts under their column names, with no derived values. Any failure changes nothing |
| `BusinessData.SaveTargets` | src/hooks/useBusinessData.ts:233-266 | a silent no-op without a selected company; otherwise one new target row for that company, then a targets reload |
| `BusinessData.Patched` | src/hooks/useBusinessData.ts:269-274 | a partial update replaces exactly the fields the patch sets and keeps id, company and period |
| `BusinessData.UpdateRows` | src/hooks/useBusinessData.ts:271-274 | update-by-id patches every row with that id and leaves every other row unchanged |
| `BusinessData.UpdateMonthlyData` | src/hooks/useBusinessData.ts:269-286 | a store error is rethrown and changes nothing. After a successful write, monthly data is reloaded only when a company is selected |
| `BusinessData.RemoveId` | src/hooks/useBusinessData.ts:291-294 | delete-by-id removes every row with that id, keeps all others, and keeps ids distinct and fresh |
| `BusinessData.DeleteMonthlyData` | src/hooks/useBusinessData.ts:289-306 | as for update: a rethrown error changes nothing, and reload happens only when a company is selected |
| `BusinessData.CreateCompany` | src/hooks/useBusinessData.ts:152-180 | success happens exactly when a user is signed in and the insert succeeds. The new row carries the given fields, the user's id and a fresh id, and becomes the selected company, whose rows and targets are shown for each read that succeeds. A failure rethrows and leaves the selection and the store unchanged |
| `BusinessData.FindCompany` | src/hooks/useBusinessData.ts:125-127 | finds the first row with the id, or reports that no row has it |
| `BusinessData.UpdateCompany` | src/hooks/useBusinessData.ts:120-149 | success happens exactly when the write succeeds and some row has the id. The updated row becomes the selected company and keeps its owner and creation time; an absent description keeps the stored one. The company's rows and targets are shown for each read that succeeds. A failure rethrows and changes nothing |
| `BusinessData.ApplyPreservesInvariants` | src/hooks/useBusinessData.ts:50-306 | every hook operation keeps store ids distinct and below the next fresh id, and keeps the three client lists in their query order |
| `BusinessData.SelectionChangesOnlyBy` | src/hooks/useBusinessData.ts:50-306 | only choosing a company, a first company load with nothing selected, or a successful create or update changes the selection |
| `BusinessData.DeletedRowNotListed` | src/hooks/useBusinessData.ts:289-306 | after a successful delete and reload, no listed row carries the deleted id |
| `BusinessData.SavedRowListed` | src/hooks/useBusinessData.ts:183-215 | after a successful save and reload, the new row is among the rows on screen |
| `BusinessData.SavingAPeriodTwiceKeepsBothRows` | src/hooks/useBusinessData.ts:201-211 | saving the same period twice leaves two rows for it, with different ids |
| `DataEntry.SchemaIssues` | src/components/forms/DataEntryForm.tsx:15-22 | the schema reports each field exactly when it fails: month or year empty, an amount below 0. Each field is reported at most once |
| `DataEntry.ValidIff` | src/components/forms/DataEntryForm.tsx:15-22 | the form validates exactly when month and year are chosen and all four amounts are at least 0 |
| `DataEntry.CalculateMargins` | src/components/forms/DataEntryForm.tsx:53-63 | margin plus direct costs is revenue, and net income plus total costs is revenue, with a missing amount read as 0; owner compensation plays no part |
| `DataEntry.HandleSubmit` | src/components/forms/DataEntryForm.tsx:70-99 | the negative-margin warning fires exactly when revenue is below direct costs, and the negative-net-income warning exactly when revenue is below total costs. When both fire, the margin warning comes first. The payload is the form's values plus both derived values, whatever the warnings |
| `DataEntry.SubmitForm` | src/components/forms/DataEntryForm.tsx:139 | `handleSubmit` runs exactly for values the schema accepts, and what it submits is `handleSubmit`'s result for those values |
| `DataEntry.MonthValuesAreOneToTwelve` | src/components/forms/DataEntryForm.tsx:110-123 | the month options are the texts "1".."12" in order, and each parses to its month number |
| `DataEntry.YearOptions` | src/components/forms/DataEntryForm.tsx:125-126 | five consecutive years from two before the current year to two after it |
| `DataEntry.DefaultNeedsMonth` | src/components/forms/DataEntryForm.tsx:40-47 | the untouched form fails on the month alone |
| `DataEntry.PickedPeriodIsStored` | src/components/forms/DataEntryForm.tsx:110-126 | a month and year picked from the pickers are stored as exactly that period |
| `MonthlyTable.HandleEdit` | src/components/forms/MonthlyDataTable.tsx:61-69 | starting an edit sets the edited id to that row's and leaves the delete dialog alone. Each whole-unit amount is shown as text that reads back as that amount |
| `MonthlyTable.EditThenCancelLeavesNoTrace` | src/components/forms/MonthlyDataTable.tsx:61-79 | starting an edit and then cancelling it leaves the table as cancelling alone would |
| `MonthlyTable.HandleCancelEdit` | src/components/forms/MonthlyDataTable.tsx:71-79 | cancelling clears the edited id and blanks all four inputs |
| `MonthlyTable.CancelRestoresInitialEdit` | src/components/forms/MonthlyDataTable.tsx:50-79 | cancelling returns the edit inputs to the component's initial values and keeps only the delete dialog's state |
| `MonthlyTable.EditDerived` | src/components/forms/MonthlyDataTable.tsx:90-91 | on the edit path, margin plus direct costs is revenue, and net income plus owner compensation is margin |
| `MonthlyTable.PatchOf` | src/components/forms/MonthlyDataTable.tsx:90-100 | the update sets all four amounts and both derived values by the edit-path formulas |
| `MonthlyTable.EditPatch` | src/components/forms/MonthlyDataTable.tsx:85-100 | every edited text is read as `parseFloat(..) \|\| 0`, and the derived values follow the edit-path formulas |
| `MonthlyTable.HandleSaveEdit` | src/components/forms/MonthlyDataTable.tsx:81-115 | saving with no row in edit does nothing. Otherwise the patch goes through the hook's update. Editing stops exactly when the update succeeds; a failure leaves the table, the state and the store as they were |
| `MonthlyTable.HandleDelete` | src/components/forms/MonthlyDataTable.tsx:117-133 | a delete goes through the hook; the confirmation closes exactly when it succeeds |
| `MonthlyTable.NetIncomePathsAgreeIff` | src/components/forms/MonthlyDataTable.tsx:90-91 | both paths give the same margin. Their net incomes agree exactly when total costs equal direct costs plus owner compensation (against DataEntryForm.tsx lines 58-59) |
| `MonthlyTable.EditIgnoresTotalCosts` | src/components/forms/MonthlyDataTable.tsx:87-99 | the total-costs input changes neither derived value on the edit path |
| `MonthlyTable.UnchangedEditWritesRowBack` | src/components/forms/MonthlyDataTable.tsx:63-91 | saving an untouched edit writes the row's own whole-unit amounts back, with edit-path derived values |
| `MonthlyTable.UpdateKeepsFormula` | src/components/forms/MonthlyDataTable.tsx:93-100 | an update with an edit-shaped patch leaves every row with that id obeying the edit-path formulas and every other row untouched |
| `MonthlyTable.SavedEditObeysEditFormula` | src/components/forms/MonthlyDataTable.tsx:81-100 | after a successful edit save, the edited rows obey the edit-path formulas and all others are unchanged |
| `MonthlyTable.MonthName` | src/components/forms/MonthlyDataTable.tsx:171 | `monthNames[month - 1]` is defined exactly for months 1..12 |
| `MonthlyTable.MonthNamesDistinct` | src/components/forms/MonthlyDataTable.tsx:39 | distinct months get distinct names |
| `MonthlyTable.PeriodLabel` | src/components/forms/MonthlyDataTable.tsx:170-172 | for months 1..12 the label is the month's name, a space, then the year; for any other month the missing name renders as nothing, so the label starts with the space. The year part is the year's decimal text |
| `MonthlyTable.PeriodLabelsDistinct` | src/components/forms/MonthlyDataTable.tsx:170-172 | for months 1..12, two labels are equal exactly when month and year are |
| `Dashboard.Alerts` | src/components/dashboard/Dashboard.tsx:32-41 | a margin alert exactly when the margin is strictly below its target, and a net-income alert exactly when net income is strictly below its target. There are at most two alerts, with the margin alert first |
| `Dashboard.RevenueNeverAlerts` | src/components/dashboard/Dashboard.tsx:26-41 | neither revenue nor the revenue target affects the alerts |
| `Dashboard.OnTargetRaisesNoAlert` | src/components/dashboard/Dashboard.tsx:33-40 | meeting both targets exactly raises no alert |
| `Dashboard.CurrentAndPrevious` | src/components/dashboard/Dashboard.tsx:22-23 | a (current, previous) pair exists exactly when there are at least two months |
| `Dashboard.NewMonthShiftsPair` | src/components/dashboard/Dashboard.tsx:22-23 | recording a month makes it current and the old current month previous |
| `Dashboard.SumAppend` | src/components/dashboard/Dashboard.tsx:162-170 | the totals of two runs of months add up |
| `Dashboard.Summarise` | src/components/dashboard/Dashboard.tsx:160-176 | the quick-stats totals are the column sums over all months, and the month count is the list's length |
| `MetricCard.PercentChange` | src/components/dashboard/MetricCard.tsx:44 | the change is finite exactly for a non-zero previous value, where change times previous equals 100 times the difference. 0 over 0 is NaN, and a rise from 0 is +Infinity |
| `MetricCard.GetTrend` | src/components/dashboard/MetricCard.tsx:41-50 | there is no trend exactly when there is no previous value. A change under 0.1 in size is neutral; otherwise the trend is positive exactly when the change is above 0 |
| `MetricCard.TrendBandForPositivePrevious` | src/components/dashboard/MetricCard.tsx:44-49 | against a positive previous value: positive at or above previous plus a thousandth of it, negative at or below previous minus a thousandth of it, neutral strictly between |
| `MetricCard.TrendAsWrittenMisreads` | src/components/dashboard/MetricCard.tsx:44-49 | 0 after 0 reads as negative, and so does a rise from -100 to -50 |
| `MetricCard.IntendedTrend` | src/components/dashboard/MetricCard.tsx:41-50 | the intended trend: positive only for a rise, negative only for a fall, neutral when the value is unchanged |
| `MetricCard.IntendedAgreesForPositivePrevious` | src/components/dashboard/MetricCard.tsx:44-49 | for a positive previous value the intended trend is the card's own |
| `MetricCard.IntendedTrendFollowsDirection` | src/components/dashboard/MetricCard.tsx:41-50 | a rise is never negative and a fall never positive under the intended trend |
| `MetricCard.ShowTarget` | src/components/dashboard/MetricCard.tsx:52-104 | the badge shows exactly when the value is under a given target. The plain line shows exactly for a non-zero target that is met. The two never show together |
| `MetricCard.TargetDisplayCases` | src/components/dashboard/MetricCard.tsx:92-104 | a non-zero target shows exactly one of badge and line, and no target shows neither. A target of 0 never shows the line and shows the badge only for a negative value |
| `MetricCard.LineSlotAsWritten` | src/components/dashboard/MetricCard.tsx:100-104 | the target line as written renders exactly when the corrected line would; what else the slot holds is left to `MetricCard.ZeroTargetRendersStrayZero` |
| `MetricCard.ZeroTargetRendersStrayZero` | src/components/dashboard/MetricCard.tsx:100 | a target of 0 leaves a stray "0" where the line would go |
| `MetricCard.TargetLineSlot` | src/components/dashboard/MetricCard.tsx:100-104 | the corrected slot: the line exactly when a non-zero target is met, and never a stray value |
| `MetricCard.SlotsDifferOnlyAtZero` | src/components/dashboard/MetricCard.tsx:100-104 | the written and corrected slots differ exactly for a target of 0 |
| `MetricCard.Card` | src/components/dashboard/MetricCard.tsx:52-104 | a card's badge is `isUnderTarget` (line 52: a target is given and the value is below it), and its trend follows the value's direction |
| `CompanySelector.CreateRequestOf` | src/components/CompanySelector.tsx:28-32 | a blank name sends nothing. Otherwise the name is sent trimmed and non-empty, and the description is sent trimmed, or as `undefined` exactly when it is blank |
| `CompanySelector.CanCreateIffRequest` | src/components/CompanySelector.tsx:102 | the create button is enabled exactly when the handler would send a request |
| `CompanySelector.RequestIgnoresSurroundingWhitespace` | src/components/CompanySelector.tsx:32 | surrounding whitespace in either input changes nothing that is sent |
| `CompanySelector.HandleCreate` | src/components/CompanySelector.tsx:28-39 | a blank name returns at once. On success both inputs are reset to "" and the dialog closes. A failure leaves the dialog, the hook state and the store as they were |
| `CompanySelector.CreatedFromDialogIsSelected` | src/components/CompanySelector.tsx:32 | a company created from the dialog is selected, carries the trimmed non-blank name, and has capital 0 |
| `CompanySelector.SelectById` | src/components/CompanySelector.tsx:50-53 | the first listed company with the id becomes selected, and the hook shows that company's rows and targets for each read that succeeds (a failed read keeps the old list); an unknown id changes nothing |
| `CompanySelector.ReselectKeepsSelection` | src/components/CompanySelector.tsx:49-53 | choosing the selected company's id again keeps it selected |
| `Auth.SchemaIssues` | src/pages/Auth.tsx:16-28 | an issue for a bad email, for a password under 6 characters, and for a confirmation that is present and differs from the password, each exactly when it applies |
| `Auth.ValidIff` | src/pages/Auth.tsx:16-28 | the schema accepts exactly a good email with a password of at least 6 characters and a matching or absent confirmation |
| `Auth.LoginWithDefaultConfirmNeverValidates` | src/pages/Auth.tsx:39-46 | with the default empty confirmation, the form never validates |
| `Auth.ValidForIff` | src/pages/Auth.tsx:16-28 | under the intended rule a login needs only a good email and a long enough password, and a signup is checked by the full schema |
| `Auth.LoginErrorMessage` | src/pages/Auth.tsx:69-77 | the credentials phrase gives the wrong-credentials message; failing that, the confirmation phrase gives the confirm-email message; otherwise the service's message is shown |
| `Auth.SignupErrorMessage` | src/pages/Auth.tsx:108-116 | the same first-match rule for the already-registered and weak-password phrases |
| `Auth.ContainedInContext` | src/pages/Auth.tsx:70 | a phrase is found anywhere inside a longer message |
| `Auth.LoginPhraseRecognised` | src/pages/Auth.tsx:70-73 | the credentials phrase anywhere in the message is recognised, and it wins over the confirmation phrase whatever their order |
| `Auth.SignupPhraseRecognised` | src/pages/Auth.tsx:109-112 | the already-registered phrase anywhere in the message is recognised, and it wins over the weak-password phrase |
| `Auth.HandleLogin` | src/pages/Auth.tsx:59-91 | the page navigates to `/business` exactly on success. A rejection shows the mapped message, and a crash shows the fixed login message. `loading` ends cleared |
| `Auth.HandleSignup` | src/pages/Auth.tsx:93-130 | success switches to login mode and never navigates. A rejection shows the mapped message, and a crash shows the fixed signup message |
| `Auth.OnSubmit` | src/pages/Auth.tsx:132-138 | rejected values reach no handler. Otherwise the login handler runs exactly in login mode and the signup handler in signup mode |
| `Auth.SignupThenLogin` | src/pages/Auth.tsx:124 | a signup never navigates, and a successful one leaves the page in login mode |
| `Auth.DefaultConfirmLoginGetsThrough` | src/pages/Auth.tsx:132-138 | under the intended rule, a login with the untouched confirmation and a long enough password reaches the login handler |

## Left out

- The record store's own behaviour is not modelled. This covers:
  - query execution
  - row-level security
  - `updated_at`
  - server-side defaults
  - the sign-in, sign-up and session calls

  The store is a concrete table set, and each call's failure is an input flag. The signed-in user
  and the clock are inputs.
- Asynchrony is not modelled. Every operation runs to completion before the next starts. The
  stale `selectedCompany` closure inside `loadCompanies`, overlapping reloads, and the
  un-awaited `onSubmit` of the monthly form are out of scope.
- Toasts, `console.error`, rendering, the loading spinners' timing, and navigation other than
  the login redirect are left out.
- The pages and components outside the core are left out: `Index`, `BusinessPlatform`,
  `Sidebar`, `AuthGuard`, the Analytics and Export views, and the `TrendChart` chart wrapper.
- The dashboard's hard-coded sample months and targets are left out. Alerts and totals are
  functions of the months and targets given. So are the "Margine %" card, whose inputs are those
  constants, and the fixed badges of the performance summary.
- `Intl.NumberFormat` currency text, `toFixed`, and the `/ 1000` display of the totals are left
  out: they are display formatting.
- The form's reset after submit and the month picker's labels are not modelled. The labels are
  listed as constants only.
- `Text.ParseFloat`: exponent notation is not read. A `type="number"` input accepts `1e3`, and
  `parseFloat` reads it as 1000; the model reads it as 1 (`Text.ExponentNotRead`). Exponents are
  left out to keep the real-number proofs small. `Infinity` is not read either; a number input
  turns it into an empty value. IEEE-754 overflow and underflow are not modelled.
- `Text.ParseInt`: `parseInt` is called without a radix (src/hooks/useBusinessData.ts:205-206),
  so JavaScript reads `"0x10"` as 16, while the model reads it as 0. Month and year come from
  pickers whose values are plain decimal texts, so the difference is not reachable there.
- `BusinessData.Patched`: a patch covers the six amount columns only. The patch type also admits
  id, company and period, but the one caller (src/components/forms/MonthlyDataTable.tsx:93-100)
  sends just the six, and a patched id could break the distinct-ids invariant.
- `BusinessData.SaveMonthlyData`: a month or year that does not parse is treated as a rejected
  write. The code would send NaN to the store; the pickers make that unreachable.
- `BusinessData.CreateCompany`, `BusinessData.UpdateCompany`: one `Network` value drives both the
  company-list reload and the reloads after selecting, so the model cannot express one of these
  requests failing while the other succeeds.
- `BusinessData.Select`: reloads on every call. The `[selectedCompany]` effect
  (src/hooks/useBusinessData.ts:319-324) fires only when the selected object changes.
- `Text.ShowAmount`: `Number.prototype.toString` is exact only for whole-unit amounts below
  10^21 in magnitude. Other amounts get a plain decimal expansion, not the shortest
  round-tripping text.
- `MonthlyTable.HandleEdit`: the read-back of the edit inputs is stated for whole-unit amounts
  only. The inputs are filled with `toString` for every amount, but the shortest-round-trip text
  of fractional amounts is not modelled.
- `MonthlyTable.UnchangedEditWritesRowBack`: stated for whole-unit amounts only, because
  fractional amounts depend on the shortest-round-trip text of `toString`, which is not modelled.
- `MetricCard.PercentChange`: finite results are exact reals, without IEEE-754 rounding.
- `Auth.SchemaIssues`: the email check is the schema library's own and is an input here. The
  password length counts Unicode scalar values, whereas the library counts UTF-16 code units.
  The two differ only for characters outside the Basic Multilingual Plane.
- `Auth.OnSubmit`: it uses the intended mode-aware validation (see Findings), not the schema as
  written.
- `MetricCard.Card`: it uses the intended trend (see Findings), not the card's formula as written.

## Findings

| source | as written | input that shows it | evidently intended | confidence | as-written member | corrected member |
|---|---|---|---|---|---|---|
| src/pages/Auth.tsx:20-24 | The confirm-password rule applies in every mode. The login tab has no confirm field, so the value keeps its default `''`, which counts as present. | Login with a good email, password `secret1`, untouched confirmation: the rule requires `'' == 'secret1'`, so the login handler never runs. | Check the confirmation only when signing up. | not executed; depends on the form library keeping the unrendered field's default value | `Auth.LoginWithDefaultConfirmNeverValidates` | `Auth.ValidForIff` |
| src/components/dashboard/MetricCard.tsx:100 | `{target && !isUnderTarget && (...)}` guards the target line. | Target 0: `0 && ...` yields 0, and React renders the number, so a stray "0" appears under the card. | Render nothing when the target is 0. | not executed | `MetricCard.ZeroTargetRendersStrayZero` | `MetricCard.TargetLineSlot` |
| src/components/dashboard/MetricCard.tsx:44-49 | The change is divided by the signed previous value, and NaN falls to "negative". | Previous 0, value 0: 0/0 is NaN, shown as a downward trend. Previous -100, value -50: the change is -50%, shown as a downward trend although the value rose. | Divide by the previous value's size; treat no change from 0 as neutral. | not executed | `MetricCard.TrendAsWrittenMisreads` | `MetricCard.IntendedTrend` |

=== FILE: auth.dfy ===
/** The sign-in page: the form schema (password length and the confirm-password
    rule), the mapping of the auth service's error messages to the page's
    own, and the submit handler's dispatch on the login/signup mode. */
module Auth {
  import opened Wrappers
  import opened Text

  datatype Mode = Login | Signup

  /** The form's values; `confirmPassword` is `None` for `undefined`. */
  datatype AuthForm = AuthForm(email: string, password: string, confirmPassword: Option<string>)

  /** The form starts with all three fields set to the empty string. */
  const DefaultForm := AuthForm("", "", Some(""))

  const MinPasswordLength := 6

  datatype Issue = InvalidEmail | PasswordTooShort | PasswordsDiffer

  /** `authSchema`, in the order its checks report. Whether the email is
      well formed is the schema library's call and is passed in. */
  function SchemaIssues(f: AuthForm, emailOk: bool): (r: seq<Issue>)
    ensures InvalidEmail in r <==> !emailOk
    ensures PasswordTooShort in r <==> |f.password| < MinPasswordLength
    ensures PasswordsDiffer in r <==> f.confirmPassword.Some? && f.confirmPassword.value != f.password
    ensures |r| <= 3
  {
    (if emailOk then [] else [InvalidEmail])
    + (if |f.password| < MinPasswordLength then [PasswordTooShort] else [])
    + (if f.confirmPassword.Some? && f.confirmPassword.value != f.password then [PasswordsDiffer] else [])
  }

  /** The schema accepts the form, whatever the mode. */
  predicate Valid(f: AuthForm, emailOk: bool)
  {
    SchemaIssues(f, emailOk) == []
  }

  /** The schema's rule in plain terms: a well-formed email, a password of at
      least six characters, and a confirmation, when present, equal to it. */
  lemma ValidIff(f: AuthForm, emailOk: bool)
    ensures Valid(f, emailOk) <==>
      emailOk && |f.password| >= MinPasswordLength
      && (f.confirmPassword.Some? ==> f.confirmPassword.value == f.password)
  {
    var r := SchemaIssues(f, emailOk);
    if r != [] {
      assert r[0] in r;
    }
  }

  /** The login tab has no confirm field, so the confirmation keeps its
      default `''`; that empty string counts as present, and no password of
      six or more characters equals it. Logging in from the untouched form
      therefore never validates. */
  lemma LoginWithDefaultConfirmNeverValidates(email: string, password: string, emailOk: bool)
    ensures !Valid(AuthForm(email, password, DefaultForm.confirmPassword), emailOk)
  {
    ValidIff(AuthForm(email, password, Some("")), emailOk);
  }

  /** The rule as evidently intended: the confirmation is checked only when
      signing up, where the page shows the field. */
  predicate ValidFor(mode: Mode, f: AuthForm, emailOk: bool)
  {
    Valid(if mode == Login then f.(confirmPassword := None) else f, emailOk)
  }

  /** With the intended rule a login needs only a well-formed email and a
      long enough password, while a signup is validated exactly as before. */
  lemma ValidForIff(mode: Mode, f: AuthForm, emailOk: bool)
    ensures mode == Login ==> (ValidFor(mode, f, emailOk) <==> emailOk && |f.password| >= MinPasswordLength)
    ensures mode == Signup ==> (ValidFor(mode, f, emailOk) <==> Valid(f, emailOk))
  {
    ValidIff(f.(confirmPassword := None), emailOk);
  }

  // ---------------------------------------------------------------- errors

  const InvalidCredentials := "Invalid login credentials"
  const EmailNotConfirmed := "Email not confirmed"
  const AlreadyRegistered := "User already registered"
  const WeakPassword := "Password should be"

  const WrongCredentialsMessage := "Email o password non corretti"
  const ConfirmEmailMessage := "Conferma la tua email prima di accedere"
  const AlreadyRegisteredMessage := "Utente già registrato. Prova ad accedere."
  const WeakPasswordMessage := "La password deve essere più sicura"
  const LoginCrashMessage := "Errore durante l'accesso"
  const SignupCrashMessage := "Errore durante la registrazione"

  /** The message a failed login shows: the first known phrase the service's
      message contains decides it; an unknown message is shown as it is. */
  function LoginErrorMessage(raw: string): (m: string)
    ensures Contains(raw, InvalidCredentials) ==> m == WrongCredentialsMessage
    ensures !Contains(raw, InvalidCredentials) && Contains(raw, EmailNotConfirmed) ==> m == ConfirmEmailMessage
    ensures !Contains(raw, InvalidCredentials) && !Contains(raw, EmailNotConfirmed) ==> m == raw
  {
    if Contains(raw, InvalidCredentials) then WrongCredentialsMessage
    else if Contains(raw, EmailNotConfirmed) then ConfirmEmailMessage
    else raw
  }

  /** The message a failed signup shows, by the same first-match rule. */
  function SignupErrorMessage(raw: string): (m: string)
    ensures Contains(raw, AlreadyRegistered) ==> m == AlreadyRegisteredMessage
    ensures !Contains(raw, AlreadyRegistered) && Contains(raw, WeakPassword) ==> m == WeakPasswordMessage
    ensures !Contains(raw, AlreadyRegistered) && !Contains(raw, WeakPassword) ==> m == raw
  {
    if Contains(raw, AlreadyRegistered) then AlreadyRegisteredMessage
    else if Contains(raw, WeakPassword) then WeakPasswordMessage
    else raw
  }

  /** `sub` occurs in any text that surrounds it. */
  lemma ContainedInContext(prefix: string, sub: string, suffix: string)
    ensures Contains(prefix + sub + suffix, sub)
  {
    var s := prefix + sub + suffix;
    assert s[|prefix|..|prefix| + |sub|] == sub;
    assert OccursAt(s, sub, |prefix|);
  }

  /** A known phrase anywhere in the service's message is recognised, and the
      credentials phrase wins over the confirmation phrase whatever their order. */
  lemma LoginPhraseRecognised(prefix: string, suffix: string)
    ensures LoginErrorMessage(prefix + InvalidCredentials + suffix) == WrongCredentialsMessage
    ensures LoginErrorMessage(prefix + EmailNotConfirmed + InvalidCredentials + suffix) == WrongCredentialsMessage
  {
    ContainedInContext(prefix, InvalidCredentials, suffix);
    assert prefix + EmailNotConfirmed + InvalidCredentials + suffix
        == (prefix + EmailNotConfirmed) + InvalidCredentials + suffix;
    ContainedInContext(prefix + EmailNotConfirmed, InvalidCredentials, suffix);
  }

  /** The signup counterpart: the already-registered phrase wins over the
      weak-password phrase whatever their order. */
  lemma SignupPhraseRecognised(prefix: string, suffix: string)
    ensures SignupErrorMessage(prefix + AlreadyRegistered + suffix) == AlreadyRegisteredMessage
    ensures SignupErrorMessage(prefix + WeakPassword + AlreadyRegistered + suffix) == AlreadyRegisteredMessage
  {
    ContainedInContext(prefix, AlreadyRegistered, suffix);
    assert prefix + WeakPassword + AlreadyRegistered + suffix
        == (prefix + WeakPassword) + AlreadyRegistered + suffix;
    ContainedInContext(prefix + WeakPassword, AlreadyRegistered, suffix);
  }

  // ---------------------------------------------------------------- submit

  /** What the auth service answers: success, an error with a message, or a
      thrown exception. */
  datatype Reply = Accepted | Rejected(message: string) | Crashed

  /** The page's state: the mode (tab), the error banner and the spinner. */
  datatype PageState = PageState(mode: Mode, error: Option<string>, loading: bool)

  /** The page after a submit, and where it navigates to, if anywhere. */
  datatype Submitted = Submitted(page: PageState, navigateTo: Option<string>)

  /** `handleLogin` once the service has answered. */
  function HandleLogin(p: PageState, reply: Reply): (r: Submitted)
    ensures !r.page.loading && r.page.mode == p.mode
    ensures r.navigateTo.Some? <==> reply == Accepted
    ensures r.navigateTo.Some? ==> r.navigateTo.value == "/business" && r.page.error.None?
    ensures reply.Rejected? ==> r.page.error == Some(LoginErrorMessage(reply.message))
    ensures reply == Crashed ==> r.page.error == Some(LoginCrashMessage)
  {
    match reply
    case Accepted => Submitted(p.(error := None, loading := false), Some("/business"))
    case Rejected(m) => Submitted(p.(error := Some(LoginErrorMessage(m)), loading := false), None)
    case Crashed => Submitted(p.(error := Some(LoginCrashMessage), loading := false), None)
  }

  /** `handleSignup` once the service has answered: success switches to the
      login tab; it never navigates. */
  function HandleSignup(p: PageState, reply: Reply): (r: Submitted)
    ensures !r.page.loading && r.navigateTo.None?
    ensures r.page.mode == (if reply == Accepted then Login else p.mode)
    ensures reply == Accepted ==> r.page.error.None?
    ensures reply.Rejected? ==> r.page.error == Some(SignupErrorMessage(reply.message))
    ensures reply == Crashed ==> r.page.error == Some(SignupCrashMessage)
  {
    match reply
    case Accepted => Submitted(p.(mode := Login, error := None, loading := false), None)
    case Rejected(m) => Submitted(p.(error := Some(SignupErrorMessage(m)), loading := false), None)
    case Crashed => Submitted(p.(error := Some(SignupCrashMessage), loading := false), None)
  }

  /** Submitting the form: values the rule rejects never reach the handler;
      otherwise the login handler runs exactly in login mode, the signup
      handler in signup mode. Validation uses the intended, mode-aware rule. */
  function OnSubmit(p: PageState, f: AuthForm, emailOk: bool, reply: Reply): (r: Submitted)
    ensures !ValidFor(p.mode, f, emailOk) ==> r == Submitted(p, None)
    ensures ValidFor(p.mode, f, emailOk) && p.mode == Login ==> r == HandleLogin(p, reply)
    ensures ValidFor(p.mode, f, emailOk) && p.mode == Signup ==> r == HandleSignup(p, reply)
  {
    if !ValidFor(p.mode, f, emailOk) then Submitted(p, None)
    else if p.mode == Login then HandleLogin(p, reply)
    else HandleSignup(p, reply)
  }

  /** Only a login can navigate, and a signup that succeeds leaves the page in
      login mode ready for the next submit. */
  lemma SignupThenLogin(p: PageState, f: AuthForm, emailOk: bool, reply: Reply)
    requires p.mode == Signup && Valid(f, emailOk)
    ensures OnSubmit(p, f, emailOk, reply).navigateTo.None?
    ensures reply == Accepted ==> OnSubmit(p, f, emailOk, reply).page.mode == Login
  {
  }

  /** A login from the untouched form with a good password and email gets
      through under the intended rule. */
  lemma DefaultConfirmLoginGetsThrough(p: PageState, email: string, password: string, reply: Reply)
    requires p.mode == Login && |password| >= MinPasswordLength
    ensures OnSubmit(p, AuthForm(email, password, DefaultForm.confirmPassword), true, reply)
         == HandleLogin(p, reply)
  {
    ValidForIff(Login, AuthForm(email, password, Some("")), true);
  }
}

=== FILE: business_data.dfy ===
/** The `useBusinessData` hook: the company / monthly-record / target entities,
    the record store the hook talks to, and the client state it keeps (company
    list, selected company, the selected company's monthly rows and targets).

    Every store request is modelled: reads answer from the store's rows with the
    requested filter and order; writes change the rows. Whether a request
    succeeds is not visible in the code, so each operation receives a `Network`
    value saying which of its requests the store answered. */
module BusinessData {
  import opened Wrappers
  import opened Text
  import opened Sorting

  type Id = nat
  type Amount = real

  datatype Company = Company(
    id: Id,
    name: string,
    description: Option<string>,
    capitaleSociale: Amount,
    userId: Id,
    createdAt: int)

  /** A monthly row. `margine` and `utileNetto` are `None` when the client
      never wrote them (the store's column default applies). */
  datatype MonthlyRecord = MonthlyRecord(
    id: Id,
    companyId: Id,
    month: int,
    year: int,
    ricavi: Amount,
    costiDiretti: Amount,
    costiTotali: Amount,
    compensoImprenditore: Amount,
    margine: Option<Amount>,
    utileNetto: Option<Amount>)

  datatype Target = Target(
    id: Id,
    companyId: Id,
    targetRicavi: Option<Amount>,
    targetMargine: Option<Amount>,
    targetUtileNetto: Option<Amount>,
    year: int)

  /** The three collections of the record store, and the next fresh row id. */
  datatype Store = Store(
    companies: seq<Company>,
    monthly: seq<MonthlyRecord>,
    targets: seq<Target>,
    nextId: Id)

  /** Which requests of one operation the store answered without error. */
  datatype Network = Network(writeOk: bool, companiesOk: bool, monthlyOk: bool, targetsOk: bool)

  /** What the monthly-data form hands to `saveMonthlyData`: period as the
      selected option strings, the four amounts, and the two derived values the
      form computed. */
  datatype MonthlyInput = MonthlyInput(
    month: string,
    year: string,
    ricavi: Amount,
    costiDiretti: Amount,
    costiTotali: Amount,
    compensoImprenditore: Amount,
    margine: Amount,
    utileNetto: Amount)

  /** The row `saveMonthlyData` upserts: no id, no derived values. A period
      string that `parseInt` cannot read is NaN, here `None`. */
  datatype MonthlyPayload = MonthlyPayload(
    companyId: Id,
    month: Option<int>,
    year: Option<int>,
    ricavi: Amount,
    costiDiretti: Amount,
    costiTotali: Amount,
    compensoImprenditore: Amount)

  datatype TargetInput = TargetInput(
    targetRicavi: Option<Amount>,
    targetMargine: Option<Amount>,
    targetUtileNetto: Option<Amount>,
    year: int)

  /** A partial update of a monthly row; absent fields keep their value. */
  datatype MonthlyPatch = MonthlyPatch(
    ricavi: Option<Amount>,
    costiDiretti: Option<Amount>,
    costiTotali: Option<Amount>,
    compensoImprenditore: Option<Amount>,
    margine: Option<Amount>,
    utileNetto: Option<Amount>)

  datatype AppState = AppState(
    companies: seq<Company>,
    selected: Option<Company>,
    monthlyData: seq<MonthlyRecord>,
    targets: seq<Target>,
    loading: bool)

  /** How an operation ended for its caller: `Thrown` is a rethrown store
      error, `NoCompanyWarning` the toast shown when no company is selected,
      `Skipped` a silent return. */
  datatype Outcome = Done | Created(company: Company) | NoCompanyWarning | Skipped | Thrown

  datatype Step = Step(state: AppState, store: Store, outcome: Outcome)

  const Initial := AppState([], None, [], [], true)

  // ---------------------------------------------------------------- orders

  /** `order('created_at', { ascending: false })`. */
  predicate NewerFirst(a: Company, b: Company)
  {
    a.createdAt >= b.createdAt
  }

  /** `order('year', { ascending: true }).order('month', { ascending: true })`. */
  predicate PeriodOrder(a: MonthlyRecord, b: MonthlyRecord)
  {
    a.year < b.year || (a.year == b.year && a.month <= b.month)
  }

  /** `order('year', { ascending: false })`. */
  predicate LaterYearFirst(a: Target, b: Target)
  {
    a.year >= b.year
  }

  lemma OrdersArePreorders()
    ensures TotalPreorder(NewerFirst)
    ensures TotalPreorder(PeriodOrder)
    ensures TotalPreorder(LaterYearFirst)
  {
  }

  // --------------------------------------------------------------- queries

  /** The companies query: every company, newest first. */
  function CompanyList(store: Store): (r: seq<Company>)
    ensures SortedBy(r, NewerFirst)
    ensures multiset(r) == multiset(store.companies)
  {
    OrdersArePreorders();
    SortBy(store.companies, NewerFirst)
  }

  predicate OfCompany(cid: Id, m: MonthlyRecord)
  {
    m.companyId == cid
  }

  predicate TargetOfCompany(cid: Id, t: Target)
  {
    t.companyId == cid
  }

  /** The monthly query for company `cid`: exactly its rows, by (year, month). */
  function MonthlyList(store: Store, cid: Id): (r: seq<MonthlyRecord>)
    ensures SortedBy(r, PeriodOrder)
    ensures forall m :: multiset(r)[m] == if m.companyId == cid then multiset(store.monthly)[m] else 0
  {
    OrdersArePreorders();
    SortBy(Filter(store.monthly, m => OfCompany(cid, m)), PeriodOrder)
  }

  /** The targets query for company `cid`: exactly its rows, latest year first. */
  function TargetList(store: Store, cid: Id): (r: seq<Target>)
    ensures SortedBy(r, LaterYearFirst)
    ensures forall t :: multiset(r)[t] == if t.companyId == cid then multiset(store.targets)[t] else 0
  {
    OrdersArePreorders();
    SortBy(Filter(store.targets, t => TargetOfCompany(cid, t)), LaterYearFirst)
  }

  // ------------------------------------------------------------ invariants

  function CompanyId(c: Company): nat { c.id }
  function MonthlyId(m: MonthlyRecord): nat { m.id }
  function TargetId(t: Target): nat { t.id }

  /** Row ids are distinct in each collection and below the next fresh id. */
  predicate WellFormed(store: Store)
  {
    && KeysDistinct(store.companies, CompanyId) && KeysBelow(store.companies, CompanyId, store.nextId)
    && KeysDistinct(store.monthly, MonthlyId) && KeysBelow(store.monthly, MonthlyId, store.nextId)
    && KeysDistinct(store.targets, TargetId) && KeysBelow(store.targets, TargetId, store.nextId)
  }

  /** The client lists are in the order their queries request. */
  predicate Ordered(s: AppState)
  {
    && SortedBy(s.companies, NewerFirst)
    && SortedBy(s.monthlyData, PeriodOrder)
    && SortedBy(s.targets, LaterYearFirst)
  }

  /** The dependent lists show exactly the selected company's rows. */
  predicate InSync(s: AppState, store: Store)
  {
    s.selected.Some? ==>
      && multiset(s.monthlyData) == multiset(MonthlyList(store, s.selected.value.id))
      && multiset(s.targets) == multiset(TargetList(store, s.selected.value.id))
  }

  // ----------------------------------------------------------- transitions

  /** `loadMonthlyData(cid)`: on a failed read the old rows stay. */
  function ReloadMonthly(s: AppState, store: Store, cid: Id, ok: bool): (r: AppState)
    ensures r.companies == s.companies && r.selected == s.selected
    ensures r.targets == s.targets && r.loading == s.loading
    ensures ok ==> SortedBy(r.monthlyData, PeriodOrder)
    ensures ok ==> forall k | 0 <= k < |r.monthlyData| :: r.monthlyData[k].companyId == cid
    ensures ok ==> r.monthlyData == MonthlyList(store, cid)
    ensures ok ==> forall m :: m in store.monthly && m.companyId == cid ==> m in r.monthlyData
    ensures !ok ==> r == s
  {
    if ok then
      var rows := MonthlyList(store, cid);
      assert forall k | 0 <= k < |rows| :: multiset(rows)[rows[k]] > 0;
      assert forall m :: m in store.monthly ==> multiset(store.monthly)[m] > 0;
      s.(monthlyData := rows)
    else s
  }

  /** `loadTargets(cid)`: on a failed read the old rows stay. */
  function ReloadTargets(s: AppState, store: Store, cid: Id, ok: bool): (r: AppState)
    ensures r.companies == s.companies && r.selected == s.selected
    ensures r.monthlyData == s.monthlyData && r.loading == s.loading
    ensures ok ==> SortedBy(r.targets, LaterYearFirst)
    ensures ok ==> forall k | 0 <= k < |r.targets| :: r.targets[k].companyId == cid
    ensures ok ==> r.targets == TargetList(store, cid)
    ensures ok ==> forall t :: t in store.targets && t.companyId == cid ==> t in r.targets
    ensures !ok ==> r == s
  {
    if ok then
      var rows := TargetList(store, cid);
      assert forall k | 0 <= k < |rows| :: multiset(rows)[rows[k]] > 0;
      assert forall t :: t in store.targets ==> multiset(store.targets)[t] > 0;
      s.(targets := rows)
    else s
  }

  /** `setSelectedCompany(c)` followed by the effect that reloads the
      company's monthly rows and targets. */
  function Select(s: AppState, store: Store, c: Company, net: Network): (r: AppState)
    ensures r.selected == Some(c)
    ensures r.companies == s.companies && r.loading == s.loading
    ensures net.monthlyOk && net.targetsOk ==> InSync(r, store)
    ensures net.monthlyOk ==> r.monthlyData == MonthlyList(store, c.id)
    ensures net.targetsOk ==> r.targets == TargetList(store, c.id)
    ensures !net.monthlyOk ==> r.monthlyData == s.monthlyData
    ensures !net.targetsOk ==> r.targets == s.targets
  {
    var s1 := s.(selected := Some(c));
    var s2 := ReloadMonthly(s1, store, c.id, net.monthlyOk);
    ReloadTargets(s2, store, c.id, net.targetsOk)
  }

  /** `loadCompanies`: refresh the list, and select its first (newest)
      company only when nothing is selected yet. */
  function LoadCompanies(s: AppState, store: Store, net: Network): (r: AppState)
    ensures !r.loading
    ensures net.companiesOk ==> multiset(r.companies) == multiset(store.companies)
    ensures !net.companiesOk ==> r == s.(loading := false)
    ensures r.selected != s.selected <==> net.companiesOk && s.selected.None? && |store.companies| > 0
    ensures r.selected != s.selected ==>
      && r.selected.value in store.companies
      && forall c | c in store.companies :: NewerFirst(r.selected.value, c)
    ensures r.selected == s.selected ==> r.monthlyData == s.monthlyData && r.targets == s.targets
    ensures r.selected != s.selected && net.monthlyOk ==>
      r.monthlyData == MonthlyList(store, r.selected.value.id)
    ensures r.selected != s.selected && net.targetsOk ==>
      r.targets == TargetList(store, r.selected.value.id)
  {
    if !net.companiesOk then s.(loading := false)
    else
      var list := CompanyList(store);
      var s1 := s.(companies := list);
      if |list| > 0 && s.selected.None? then
        FirstIsNewest(list, store.companies);
        Select(s1, store, list[0], net).(loading := false)
      else
        assert |list| == 0 ==> |store.companies| == 0 by {
          if |store.companies| > 0 {
            assert store.companies[0] in multiset(list);
          }
        }
        s1.(loading := false)
  }

  /** The mount effect's first `loadCompanies`: from the initial state, a
      successful read of a non-empty table selects a newest company, ends
      loading, keeps every list in query order and, when the monthly read
      succeeds, shows that company's rows. */
  lemma FirstLoadSelectsNewest(store: Store, net: Network)
    requires net.companiesOk && |store.companies| > 0
    ensures var r := LoadCompanies(Initial, store, net);
            && Ordered(r) && !r.loading
            && r.selected.Some? && r.selected.value in store.companies
            && (forall c | c in store.companies :: NewerFirst(r.selected.value, c))
            && (net.monthlyOk ==> r.monthlyData == MonthlyList(store, r.selected.value.id))
  {
    LoadCompaniesKeepsOrder(Initial, store, net);
  }

  /** The head of a newest-first permutation of `all` is in `all` and is at
      least as new as every company in it. */
  lemma FirstIsNewest(list: seq<Company>, all: seq<Company>)
    requires |list| > 0 && SortedBy(list, NewerFirst) && multiset(list) == multiset(all)
    ensures list[0] in all
    ensures forall c | c in all :: NewerFirst(list[0], c)
  {
    assert list[0] in multiset(all);
    forall c | c in all ensures NewerFirst(list[0], c) {
      assert c in multiset(list);
      var k :| 0 <= k < |list| && list[k] == c;
      if k > 0 {
        assert NewerFirst(list[0], list[k]);
      }
    }
  }

  /** The row `saveMonthlyData` upserts for the selected company. */
  function Payload(c: Company, input: MonthlyInput): MonthlyPayload
  {
    MonthlyPayload(c.id, ParseInt(input.month), ParseInt(input.year),
                   input.ricavi, input.costiDiretti, input.costiTotali, input.compensoImprenditore)
  }

  /** The stored row an accepted payload becomes: a fresh id and no derived
      values. The upsert names no conflict key, so it always inserts. */
  function StoredRow(p: MonthlyPayload, id: Id): (m: MonthlyRecord)
    requires p.month.Some? && p.year.Some?
  {
    MonthlyRecord(id, p.companyId, p.month.value, p.year.value,
                  p.ricavi, p.costiDiretti, p.costiTotali, p.compensoImprenditore, None, None)
  }

  /** `saveMonthlyData`: refused with a warning when no company is selected;
      otherwise upsert the payload and reload the monthly rows. A period the
      store cannot take (NaN month or year) is a store error. */
  function SaveMonthlyData(s: AppState, store: Store, input: MonthlyInput, net: Network): (r: Step)
    ensures s.selected.None? ==> r == Step(s, store, NoCompanyWarning)
    ensures r.outcome == Done <==>
      s.selected.Some? && net.writeOk && ParseInt(input.month).Some? && ParseInt(input.year).Some?
    ensures r.outcome != Done ==> r.state == s && r.store == store
    ensures r.outcome == Done ==>
      && r.store.companies == store.companies && r.store.targets == store.targets
      && |r.store.monthly| == |store.monthly| + 1
      && r.store.monthly[..|store.monthly|] == store.monthly
      && var m := r.store.monthly[|store.monthly|];
         && m.companyId == s.selected.value.id
         && Some(m.month) == ParseInt(input.month) && Some(m.year) == ParseInt(input.year)
         && m.ricavi == input.ricavi && m.costiDiretti == input.costiDiretti
         && m.costiTotali == input.costiTotali && m.compensoImprenditore == input.compensoImprenditore
         && m.margine.None? && m.utileNetto.None?
    ensures r.outcome == Done ==>
      r.state == ReloadMonthly(s, r.store, s.selected.value.id, net.monthlyOk)
  {
    if s.selected.None? then Step(s, store, NoCompanyWarning)
    else
      var p := Payload(s.selected.value, input);
      if !net.writeOk || p.month.None? || p.year.None? then Step(s, store, Thrown)
      else
        var row := StoredRow(p, store.nextId);
        var store' := store.(monthly := store.monthly + [row], nextId := store.nextId + 1);
        Step(ReloadMonthly(s, store', s.selected.value.id, net.monthlyOk), store', Done)
  }

  /** `saveTargets`: a silent no-op without a selected company; otherwise
      insert a target row for it and reload the targets. */
  function SaveTargets(s: AppState, store: Store, input: TargetInput, net: Network): (r: Step)
    ensures s.selected.None? ==> r == Step(s, store, Skipped)
    ensures r.outcome == Done <==> s.selected.Some? && net.writeOk
    ensures r.outcome != Done ==> r.state == s && r.store == store
    ensures r.outcome == Done ==>
      && r.store.companies == store.companies && r.store.monthly == store.monthly
      && |r.store.targets| == |store.targets| + 1
      && r.store.targets[..|store.targets|] == store.targets
      && var t := r.store.targets[|store.targets|];
         && t.companyId == s.selected.value.id && t.year == input.year
         && t.targetRicavi == input.targetRicavi && t.targetMargine == input.targetMargine
         && t.targetUtileNetto == input.targetUtileNetto
    ensures r.outcome == Done ==>
      r.state == ReloadTargets(s, r.store, s.selected.value.id, net.targetsOk)
  {
    if s.selected.None? then Step(s, store, Skipped)
    else if !net.writeOk then Step(s, store, Thrown)
    else
      var row := Target(store.nextId, s.selected.value.id, input.targetRicavi,
                        input.targetMargine, input.targetUtileNetto, input.year);
      var store' := store.(targets := store.targets + [row], nextId := store.nextId + 1);
      Step(ReloadTargets(s, store', s.selected.value.id, net.targetsOk), store', Done)
  }

  /** The fields of `m` that `patch` sets, replaced. */
  function Patched(m: MonthlyRecord, patch: MonthlyPatch): (r: MonthlyRecord)
    ensures r.id == m.id && r.companyId == m.companyId && r.month == m.month && r.year == m.year
    ensures r.ricavi == patch.ricavi.GetOr(m.ricavi)
    ensures r.costiDiretti == patch.costiDiretti.GetOr(m.costiDiretti)
    ensures r.costiTotali == patch.costiTotali.GetOr(m.costiTotali)
    ensures r.compensoImprenditore == patch.compensoImprenditore.GetOr(m.compensoImprenditore)
    ensures r.margine == (if patch.margine.Some? then patch.margine else m.margine)
    ensures r.utileNetto == (if patch.utileNetto.Some? then patch.utileNetto else m.utileNetto)
  {
    m.(ricavi := patch.ricavi.GetOr(m.ricavi),
       costiDiretti := patch.costiDiretti.GetOr(m.costiDiretti),
       costiTotali := patch.costiTotali.GetOr(m.costiTotali),
       compensoImprenditore := patch.compensoImprenditore.GetOr(m.compensoImprenditore),
       margine := if patch.margine.Some? then patch.margine else m.margine,
       utileNetto := if patch.utileNetto.Some? then patch.utileNetto else m.utileNetto)
  }

  /** `update(patch).eq('id', id)` on the monthly rows. */
  function UpdateRows(rows: seq<MonthlyRecord>, id: Id, patch: MonthlyPatch): (r: seq<MonthlyRecord>)
    ensures |r| == |rows|
    ensures forall k | 0 <= k < |rows| ::
      r[k] == if rows[k].id == id then Patched(rows[k], patch) else rows[k]
  {
    if rows == [] then []
    else [if rows[0].id == id then Patched(rows[0], patch) else rows[0]] + UpdateRows(rows[1..], id, patch)
  }

  predicate NotId(id: Id, m: MonthlyRecord)
  {
    m.id != id
  }

  /** `updateMonthlyData`: patch the row, then reload the monthly rows only
      when a company is selected; a store error is rethrown with nothing
      changed. */
  function UpdateMonthlyData(s: AppState, store: Store, id: Id, patch: MonthlyPatch, net: Network): (r: Step)
    ensures r.outcome == (if net.writeOk then Done else Thrown)
    ensures !net.writeOk ==> r.state == s && r.store == store
    ensures net.writeOk ==>
      && r.store == store.(monthly := r.store.monthly)
      && |r.store.monthly| == |store.monthly|
      && forall k | 0 <= k < |store.monthly| ::
           r.store.monthly[k] == if store.monthly[k].id == id then Patched(store.monthly[k], patch) else store.monthly[k]
    ensures net.writeOk && s.selected.None? ==> r.state == s
    ensures net.writeOk && s.selected.Some? ==>
      r.state == ReloadMonthly(s, r.store, s.selected.value.id, net.monthlyOk)
  {
    if !net.writeOk then Step(s, store, Thrown)
    else
      var store' := store.(monthly := UpdateRows(store.monthly, id, patch));
      var s' := if s.selected.Some? then ReloadMonthly(s, store', s.selected.value.id, net.monthlyOk) else s;
      Step(s', store', Done)
  }

  /** `delete().eq('id', id)` on the monthly rows: every row with that id
      goes, every other row stays. */
  function RemoveId(rows: seq<MonthlyRecord>, id: Id): (r: seq<MonthlyRecord>)
    ensures forall m :: multiset(r)[m] == if m.id == id then 0 else multiset(rows)[m]
    ensures forall bound: nat :: KeysDistinct(rows, MonthlyId) && KeysBelow(rows, MonthlyId, bound) ==>
              KeysDistinct(r, MonthlyId) && KeysBelow(r, MonthlyId, bound)
  {
    var keep := m => NotId(id, m);
    assert forall bound: nat :: KeysDistinct(rows, MonthlyId) && KeysBelow(rows, MonthlyId, bound) ==>
              KeysDistinct(Filter(rows, keep), MonthlyId) && KeysBelow(Filter(rows, keep), MonthlyId, bound) by {
      forall bound: nat | KeysDistinct(rows, MonthlyId) && KeysBelow(rows, MonthlyId, bound) {
        FilterKeepsKeys(rows, keep, MonthlyId, bound);
      }
    }
    Filter(rows, keep)
  }

  /** `deleteMonthlyData`: remove the rows with that id, then reload the
      monthly rows only when a company is selected; a store error is rethrown
      with nothing changed. */
  function DeleteMonthlyData(s: AppState, store: Store, id: Id, net: Network): (r: Step)
    ensures r.outcome == (if net.writeOk then Done else Thrown)
    ensures !net.writeOk ==> r.state == s && r.store == store
    ensures net.writeOk ==>
      && r.store == store.(monthly := r.store.monthly)
      && forall m :: multiset(r.store.monthly)[m] == if m.id == id then 0 else multiset(store.monthly)[m]
    ensures net.writeOk && s.selected.None? ==> r.state == s
    ensures net.writeOk && s.selected.Some? ==>
      r.state == ReloadMonthly(s, r.store, s.selected.value.id, net.monthlyOk)
  {
    if !net.writeOk then Step(s, store, Thrown)
    else
      var store' := store.(monthly := RemoveId(store.monthly, id));
      var s' := if s.selected.Some? then ReloadMonthly(s, store', s.selected.value.id, net.monthlyOk) else s;
      Step(s', store', Done)
  }

  /** `createCompany`: insert a row for the signed-in user, reload the list,
      and select the new row. Without a signed-in user the id lookup throws
      before the insert; any error is rethrown with the selection untouched.
      The list reload and the selection reload share one `Network` value, so
      they succeed or fail together. */
  function CreateCompany(s: AppState, store: Store, name: string, description: Option<string>,
                         capitaleSociale: Amount, user: Option<Id>, now: int, net: Network): (r: Step)
    ensures r.outcome.Created? <==> user.Some? && net.writeOk
    ensures !r.outcome.Created? ==> r.outcome == Thrown && r.state == s && r.store == store
    ensures r.outcome.Created? ==>
      && var c := r.outcome.company;
         && r.state.selected == Some(c)
         && c.name == name && c.description == description && c.capitaleSociale == capitaleSociale
         && c.userId == user.value && c.createdAt == now
         && c.id == store.nextId && r.store.companies == store.companies + [c]
         && r.store.monthly == store.monthly && r.store.targets == store.targets
    ensures r.outcome.Created? && net.companiesOk ==> r.outcome.company in r.state.companies
    ensures r.outcome.Created? && net.monthlyOk ==>
      r.state.monthlyData == MonthlyList(r.store, r.outcome.company.id)
    ensures r.outcome.Created? && net.targetsOk ==>
      r.state.targets == TargetList(r.store, r.outcome.company.id)
  {
    if user.None? || !net.writeOk then Step(s, store, Thrown)
    else
      var c := Company(store.nextId, name, description, capitaleSociale, user.value, now);
      var store' := store.(companies := store.companies + [c], nextId := store.nextId + 1);
      var s1 := LoadCompanies(s, store', net);
      assert store'.companies[|store.companies|] == c;
      assert net.companiesOk ==> c in multiset(s1.companies);
      Step(Select(s1, store', c, net), store', Created(c))
  }

  /** The index of the company with id `id`, if there is one. */
  function FindCompany(companies: seq<Company>, id: Id): (k: Option<nat>)
    ensures k.Some? ==> k.value < |companies| && companies[k.value].id == id
    ensures k.Some? ==> forall j | 0 <= j < k.value :: companies[j].id != id
    ensures k.None? ==> forall j | 0 <= j < |companies| :: companies[j].id != id
  {
    if companies == [] then None
    else if companies[0].id == id then Some(0)
    else
      match FindCompany(companies[1..], id)
      case Some(k) => Some(k + 1)
      case None => None
  }

  /** `updateCompany`: update the row with that id (an absent description is
      not sent, so the stored one stays), reload the list, and select the
      updated row. `single()` fails when no row has the id; any error is
      rethrown with the selection untouched. Only the first row with the id
      is rewritten: ids are distinct in every reachable store
      (`ApplyPreservesInvariants`), so it is the only such row. The list
      reload and the selection reload share one `Network` value, so they
      succeed or fail together. */
  function UpdateCompany(s: AppState, store: Store, id: Id, name: string, description: Option<string>,
                         capitaleSociale: Amount, net: Network): (r: Step)
    ensures r.outcome.Created? <==> net.writeOk && exists k | 0 <= k < |store.companies| :: store.companies[k].id == id
    ensures !r.outcome.Created? ==> r.outcome == Thrown && r.state == s && r.store == store
    ensures r.outcome.Created? ==>
      && var c := r.outcome.company;
         && r.state.selected == Some(c)
         && c.id == id && c.name == name && c.capitaleSociale == capitaleSociale
         && c in r.store.companies
         && |r.store.companies| == |store.companies|
         && r.store.monthly == store.monthly && r.store.targets == store.targets
         && r.store.nextId == store.nextId
         && exists k | 0 <= k < |store.companies| :: store.companies[k].id == id
              && c.userId == store.companies[k].userId && c.createdAt == store.companies[k].createdAt
              && c.description == (if description.Some? then description else store.companies[k].description)
              && r.store.companies == store.companies[k := c]
    ensures r.outcome.Created? && net.monthlyOk ==>
      r.state.monthlyData == MonthlyList(r.store, r.outcome.company.id)
    ensures r.outcome.Created? && net.targetsOk ==>
      r.state.targets == TargetList(r.store, r.outcome.company.id)
  {
    if !net.writeOk then Step(s, store, Thrown)
    else
      match FindCompany(store.companies, id)
      case None => Step(s, store, Thrown)
      case Some(k) =>
        var prev := store.companies[k];
        var c := prev.(name := name,
                      description := if description.Some? then description else prev.description,
                      capitaleSociale := capitaleSociale);
        var store' := store.(companies := store.companies[k := c]);
        var s1 := LoadCompanies(s, store', net);
        assert store'.companies[k] == c;
        Step(Select(s1, store', c, net), store', Created(c))
  }

  // ------------------------------------------------------- the hook as a whole

  /** The operations the hook hands to its callers. */
  datatype Action =
    | LoadCompaniesAction
    | SelectCompany(company: Company)
    | SaveMonthly(input: MonthlyInput)
    | SaveTargetsAction(targets: TargetInput)
    | UpdateMonthly(id: Id, patch: MonthlyPatch)
    | DeleteMonthly(id: Id)
    | CreateCompanyAction(name: string, description: Option<string>, capitaleSociale: Amount, user: Option<Id>, now: int)
    | UpdateCompanyAction(companyId: Id, name: string, description: Option<string>, capitaleSociale: Amount)

  function Apply(s: AppState, store: Store, a: Action, net: Network): Step
  {
    match a
    case LoadCompaniesAction => Step(LoadCompanies(s, store, net), store, Done)
    case SelectCompany(c) => Step(Select(s, store, c, net), store, Done)
    case SaveMonthly(input) => SaveMonthlyData(s, store, input, net)
    case SaveTargetsAction(t) => SaveTargets(s, store, t, net)
    case UpdateMonthly(id, patch) => UpdateMonthlyData(s, store, id, patch, net)
    case DeleteMonthly(id) => DeleteMonthlyData(s, store, id, net)
    case CreateCompanyAction(name, d, cap, user, now) => CreateCompany(s, store, name, d, cap, user, now, net)
    case UpdateCompanyAction(id, name, d, cap) => UpdateCompany(s, store, id, name, d, cap, net)
  }

  lemma SelectKeepsOrder(s: AppState, store: Store, c: Company, net: Network)
    requires Ordered(s)
    ensures Ordered(Select(s, store, c, net))
  {
  }

  lemma LoadCompaniesKeepsOrder(s: AppState, store: Store, net: Network)
    requires Ordered(s)
    ensures Ordered(LoadCompanies(s, store, net))
  {
    if net.companiesOk && |CompanyList(store)| > 0 && s.selected.None? {
      var s1 := s.(companies := CompanyList(store));
      SelectKeepsOrder(s1, store, CompanyList(store)[0], net);
    }
  }

  /** Appending a row with the next fresh id keeps ids distinct and fresh. */
  lemma AppendFresh<T>(xs: seq<T>, x: T, key: T -> nat, bound: nat)
    requires KeysDistinct(xs, key) && KeysBelow(xs, key, bound) && key(x) == bound
    ensures KeysDistinct(xs + [x], key) && KeysBelow(xs + [x], key, bound + 1)
  {
  }

  lemma SaveMonthlyPreserves(s: AppState, store: Store, input: MonthlyInput, net: Network)
    requires WellFormed(store) && Ordered(s)
    ensures WellFormed(SaveMonthlyData(s, store, input, net).store)
    ensures Ordered(SaveMonthlyData(s, store, input, net).state)
  {
    var r := SaveMonthlyData(s, store, input, net);
    if r.outcome == Done {
      AppendFresh(store.monthly, r.store.monthly[|store.monthly|], MonthlyId, store.nextId);
      assert r.store.monthly == store.monthly + [r.store.monthly[|store.monthly|]];
    }
  }

  lemma SaveTargetsPreserves(s: AppState, store: Store, input: TargetInput, net: Network)
    requires WellFormed(store) && Ordered(s)
    ensures WellFormed(SaveTargets(s, store, input, net).store)
    ensures Ordered(SaveTargets(s, store, input, net).state)
  {
    var r := SaveTargets(s, store, input, net);
    if r.outcome == Done {
      AppendFresh(store.targets, r.store.targets[|store.targets|], TargetId, store.nextId);
      assert r.store.targets == store.targets + [r.store.targets[|store.targets|]];
    }
  }

  lemma UpdateMonthlyPreserves(s: AppState, store: Store, id: Id, patch: MonthlyPatch, net: Network)
    requires WellFormed(store) && Ordered(s)
    ensures WellFormed(UpdateMonthlyData(s, store, id, patch, net).store)
    ensures Ordered(UpdateMonthlyData(s, store, id, patch, net).state)
  {
    var r := UpdateMonthlyData(s, store, id, patch, net);
    if net.writeOk {
      assert forall k | 0 <= k < |store.monthly| :: MonthlyId(r.store.monthly[k]) == MonthlyId(store.monthly[k]);
    }
  }

  lemma CreateCompanyPreserves(s: AppState, store: Store, name: string, d: Option<string>,
                               cap: Amount, user: Option<Id>, now: int, net: Network)
    requires WellFormed(store) && Ordered(s)
    ensures WellFormed(CreateCompany(s, store, name, d, cap, user, now, net).store)
    ensures Ordered(CreateCompany(s, store, name, d, cap, user, now, net).state)
  {
    var r := CreateCompany(s, store, name, d, cap, user, now, net);
    if r.outcome.Created? {
      var c := r.outcome.company;
      AppendFresh(store.companies, c, CompanyId, store.nextId);
      LoadCompaniesKeepsOrder(s, r.store, net);
      SelectKeepsOrder(LoadCompanies(s, r.store, net), r.store, c, net);
    }
  }

  lemma UpdateCompanyPreserves(s: AppState, store: Store, id: Id, name: string, d: Option<string>,
                               cap: Amount, net: Network)
    requires WellFormed(store) && Ordered(s)
    ensures WellFormed(UpdateCompany(s, store, id, name, d, cap, net).store)
    ensures Ordered(UpdateCompany(s, store, id, name, d, cap, net).state)
  {
    var r := UpdateCompany(s, store, id, name, d, cap, net);
    if r.outcome.Created? {
      var k :| 0 <= k < |store.companies| && store.companies[k].id == id
               && r.store.companies == store.companies[k := r.outcome.company];
      assert forall j | 0 <= j < |store.companies| :: CompanyId(r.store.companies[j]) == CompanyId(store.companies[j]);
      LoadCompaniesKeepsOrder(s, r.store, net);
      SelectKeepsOrder(LoadCompanies(s, r.store, net), r.store, r.outcome.company, net);
    }
  }

  /** Every operation keeps the store's ids distinct and fresh, and keeps
      the client's lists in their query order. */
  lemma ApplyPreservesInvariants(s: AppState, store: Store, a: Action, net: Network)
    requires WellFormed(store) && Ordered(s)
    ensures WellFormed(Apply(s, store, a, net).store)
    ensures Ordered(Apply(s, store, a, net).state)
  {
    match a
    case LoadCompaniesAction => LoadCompaniesKeepsOrder(s, store, net);
    case SelectCompany(c) => SelectKeepsOrder(s, store, c, net);
    case SaveMonthly(input) => SaveMonthlyPreserves(s, store, input, net);
    case SaveTargetsAction(t) => SaveTargetsPreserves(s, store, t, net);
    case UpdateMonthly(id, patch) => UpdateMonthlyPreserves(s, store, id, patch, net);
    case DeleteMonthly(id) =>
    case CreateCompanyAction(name, d, cap, user, now) => CreateCompanyPreserves(s, store, name, d, cap, user, now, net);
    case UpdateCompanyAction(id, name, d, cap) => UpdateCompanyPreserves(s, store, id, name, d, cap, net);
  }

  /** Only choosing a company, a first company load with nothing selected, and
      a successful create or update change the selection: monthly and target
      writes never do. */
  lemma SelectionChangesOnlyBy(s: AppState, store: Store, a: Action, net: Network)
    ensures Apply(s, store, a, net).state.selected != s.selected ==>
      || a.SelectCompany?
      || (a.LoadCompaniesAction? && s.selected.None?)
      || Apply(s, store, a, net).outcome.Created?
  {
  }

  /** After a successful delete, with a company selected and a successful
      reload, no listed monthly row carries the deleted id. */
  lemma DeletedRowNotListed(s: AppState, store: Store, id: Id, net: Network)
    requires net.writeOk && net.monthlyOk && s.selected.Some?
    ensures forall k | 0 <= k < |DeleteMonthlyData(s, store, id, net).state.monthlyData| ::
      DeleteMonthlyData(s, store, id, net).state.monthlyData[k].id != id
  {
    var r := DeleteMonthlyData(s, store, id, net);
    var rows := r.state.monthlyData;
    assert rows == MonthlyList(r.store, s.selected.value.id);
    forall k | 0 <= k < |rows| ensures rows[k].id != id {
      assert multiset(rows)[rows[k]] > 0;
    }
  }

  /** The monthly upsert names no conflict key: saving the same period twice
      leaves two rows for that period, with different ids. */
  lemma SavingAPeriodTwiceKeepsBothRows(s: AppState, store: Store, input: MonthlyInput, net: Network)
    requires s.selected.Some? && net.writeOk
    requires ParseInt(input.month).Some? && ParseInt(input.year).Some?
    ensures var r1 := SaveMonthlyData(s, store, input, net);
            var r2 := SaveMonthlyData(r1.state, r1.store, input, net);
            && r2.outcome == Done
            && |r2.store.monthly| == |store.monthly| + 2
            && var a := r2.store.monthly[|store.monthly|];
               var b := r2.store.monthly[|store.monthly| + 1];
               && a.companyId == b.companyId && a.month == b.month && a.year == b.year
               && a.id != b.id
  {
    var r1 := SaveMonthlyData(s, store, input, net);
    var r2 := SaveMonthlyData(r1.state, r1.store, input, net);
    assert r2.store.monthly[..|r1.store.monthly|] == r1.store.monthly;
    assert r2.store.monthly[|store.monthly|] == r1.store.monthly[|store.monthly|];
  }

  /** The positive partner of `DeletedRowNotListed`: after a successful save
      and reload, the row just stored is on screen. */
  lemma SavedRowListed(s: AppState, store: Store, input: MonthlyInput, net: Network)
    requires s.selected.Some? && net.writeOk && net.monthlyOk
    requires ParseInt(input.month).Some? && ParseInt(input.year).Some?
    ensures var r := SaveMonthlyData(s, store, input, net);
            r.outcome == Done && r.store.monthly[|store.monthly|] in r.state.monthlyData
  {
    var r := SaveMonthlyData(s, store, input, net);
    var m := r.store.monthly[|store.monthly|];
    assert m in r.store.monthly;
  }
}

=== FILE: company_selector.dfy ===
/** The company picker: creating a company from the dialog's two text
    inputs, the create button's enable rule, and switching the selection by id. */
module CompanySelector {
  import opened Wrappers
  import opened Text
  import opened Sorting
  import opened BusinessData

  /** The dialog's state: whether it is open and the two inputs as typed. */
  datatype SelectorState = SelectorState(dialogOpen: bool, name: string, description: string)

  /** The arguments handed to `onCreateCompany`. */
  datatype CreateRequest = CreateRequest(name: string, description: Option<string>)

  /** The create button is enabled exactly when the name is not blank. */
  predicate CanCreate(name: string)
  {
    Trim(name) != []
  }

  /** What `handleCreateCompany` passes on: nothing for a blank name;
      otherwise the trimmed name, and the trimmed description or `undefined`
      when the description is blank. */
  function CreateRequestOf(name: string, description: string): (r: Option<CreateRequest>)
    ensures r.None? <==> AllWhitespace(name)
    ensures r.Some? ==> r.value.name == Trim(name) && r.value.name != []
    ensures r.Some? ==> (r.value.description.None? <==> AllWhitespace(description))
    ensures r.Some? && r.value.description.Some? ==>
              r.value.description.value == Trim(description) && r.value.description.value != []
  {
    var n := Trim(name);
    if n == [] then None
    else
      var d := Trim(description);
      Some(CreateRequest(n, if d == [] then None else Some(d)))
  }

  /** The button's rule and the handler's guard agree. */
  lemma CanCreateIffRequest(name: string, description: string)
    ensures CanCreate(name) <==> CreateRequestOf(name, description).Some?
  {
  }

  /** Trimming the inputs first changes nothing: the request depends only on
      the trimmed texts. */
  lemma RequestIgnoresSurroundingWhitespace(name: string, description: string)
    ensures CreateRequestOf(Trim(name), Trim(description)) == CreateRequestOf(name, description)
  {
    TrimIdempotent(name);
    TrimIdempotent(description);
  }

  /** `handleCreateCompany` against the hook's `createCompany` (capital 0, the
      default): a blank name returns at once; a success clears both inputs
      and closes the dialog; a failure is swallowed and leaves the dialog as it was. */
  function HandleCreate(sel: SelectorState, s: AppState, store: Store, user: Option<Id>, now: int, net: Network)
    : (r: (SelectorState, Step))
    ensures AllWhitespace(sel.name) ==> r == (sel, Step(s, store, Skipped))
    ensures !AllWhitespace(sel.name) ==>
              var req := CreateRequestOf(sel.name, sel.description).value;
              r.1 == CreateCompany(s, store, req.name, req.description, 0.0, user, now, net)
    ensures r.1.outcome.Created? ==> r.0 == SelectorState(false, "", "")
    ensures !r.1.outcome.Created? ==> r.0 == sel && r.1.state == s && r.1.store == store
  {
    match CreateRequestOf(sel.name, sel.description)
    case None => (sel, Step(s, store, Skipped))
    case Some(req) =>
      var step := CreateCompany(s, store, req.name, req.description, 0.0, user, now, net);
      (if step.outcome.Created? then SelectorState(false, "", "") else sel, step)
  }

  /** A company created from the dialog is selected and carries the trimmed,
      non-blank name. */
  lemma CreatedFromDialogIsSelected(sel: SelectorState, s: AppState, store: Store, user: Option<Id>, now: int, net: Network)
    requires HandleCreate(sel, s, store, user, now, net).1.outcome.Created?
    ensures var r := HandleCreate(sel, s, store, user, now, net).1;
            && r.state.selected == Some(r.outcome.company)
            && r.outcome.company.name == Trim(sel.name) && r.outcome.company.name != []
            && r.outcome.company.capitaleSociale == 0.0
  {
  }

  /** The select's `onValueChange`: the first listed company with that id
      becomes selected, and the selection effect reloads that company's
      monthly rows and targets; an id not in the list leaves the state as it
      was. */
  function SelectById(s: AppState, store: Store, id: Id, net: Network): (r: AppState)
    ensures (forall j | 0 <= j < |s.companies| :: s.companies[j].id != id) ==> r == s
    ensures (exists j | 0 <= j < |s.companies| :: s.companies[j].id == id) ==>
              exists k | 0 <= k < |s.companies| ::
                && r.selected == Some(s.companies[k]) && s.companies[k].id == id
                && forall j | 0 <= j < k :: s.companies[j].id != id
    ensures (exists j | 0 <= j < |s.companies| :: s.companies[j].id == id) ==>
              && (net.monthlyOk ==> r.monthlyData == MonthlyList(store, id))
              && (net.targetsOk ==> r.targets == TargetList(store, id))
              && (!net.monthlyOk ==> r.monthlyData == s.monthlyData)
              && (!net.targetsOk ==> r.targets == s.targets)
  {
    match FindCompany(s.companies, id)
    case None => s
    case Some(k) => Select(s, store, s.companies[k], net)
  }

  /** Choosing the selected company's own id again keeps it selected. */
  lemma {:induction false} ReselectKeepsSelection(s: AppState, store: Store, net: Network)
    requires s.selected.Some? && s.selected.value in s.companies
    requires KeysDistinct(s.companies, CompanyId)
    ensures SelectById(s, store, s.selected.value.id, net).selected == s.selected
  {
    var c := s.selected.value;
    var i :| 0 <= i < |s.companies| && s.companies[i] == c;
    var k := FindCompany(s.companies, c.id).value;
    assert k <= i;
    assert CompanyId(s.companies[k]) == CompanyId(s.companies[i]);
  }
}

=== FILE: dashboard.dfy ===
/** The dashboard's advisory logic: target alerts for the current month, the
    current/previous month pick, and the running totals over all months. */
module Dashboard {
  import opened Wrappers
  import opened BusinessData

  /** One month as the dashboard reads it. */
  datatype MonthSummary = MonthSummary(ricavi: Amount, margine: Amount, utileNetto: Amount)

  /** The monthly targets the dashboard compares against. */
  datatype Targets = Targets(ricavi: Amount, margine: Amount, utileNetto: Amount)

  datatype Alert = MarginBelowTarget | NetIncomeBelowTarget

  /** The alert list: a margin alert when the margin is strictly below its
      target, then a net-income alert when net income is strictly below its
      target. Revenue is never checked. */
  function Alerts(current: MonthSummary, targets: Targets): (r: seq<Alert>)
    ensures MarginBelowTarget in r <==> current.margine < targets.margine
    ensures NetIncomeBelowTarget in r <==> current.utileNetto < targets.utileNetto
    ensures |r| <= 2
    ensures |r| == 2 ==> r == [MarginBelowTarget, NetIncomeBelowTarget]
    ensures forall i, j | 0 <= i < j < |r| :: r[i] != r[j]
  {
    (if current.margine < targets.margine then [MarginBelowTarget] else [])
    + (if current.utileNetto < targets.utileNetto then [NetIncomeBelowTarget] else [])
  }

  /** Neither the month's revenue nor the revenue target affects the alerts. */
  lemma RevenueNeverAlerts(current: MonthSummary, targets: Targets, ricavi: Amount, targetRicavi: Amount)
    ensures Alerts(current.(ricavi := ricavi), targets.(ricavi := targetRicavi)) == Alerts(current, targets)
  {
  }

  /** Meeting both targets exactly raises no alert: the comparisons are strict. */
  lemma OnTargetRaisesNoAlert(current: MonthSummary, targets: Targets)
    requires current.margine == targets.margine && current.utileNetto == targets.utileNetto
    ensures Alerts(current, targets) == []
  {
  }

  /** The current month is the last entry and the previous month the one
      before it; with fewer than two entries there is no such pair. */
  function CurrentAndPrevious(months: seq<MonthSummary>): (r: Option<(MonthSummary, MonthSummary)>)
    ensures r.Some? <==> |months| >= 2
    ensures r.Some? ==> r.value.0 in months && r.value.1 in months
  {
    if |months| < 2 then None else Some((months[|months| - 1], months[|months| - 2]))
  }

  /** Recording one more month makes it current and the old current month
      previous. */
  lemma NewMonthShiftsPair(months: seq<MonthSummary>, m: MonthSummary)
    requires |months| >= 1
    ensures CurrentAndPrevious(months + [m]) == Some((m, months[|months| - 1]))
  {
  }

  // ----------------------------------------------------------------- totals

  datatype Column = Revenue | Margin | NetIncome

  function Value(m: MonthSummary, c: Column): Amount
  {
    match c
    case Revenue => m.ricavi
    case Margin => m.margine
    case NetIncome => m.utileNetto
  }

  /** The sum of one column, read from the first month to the last. */
  function Sum(months: seq<MonthSummary>, c: Column): Amount
  {
    if months == [] then 0.0 else Sum(months[..|months| - 1], c) + Value(months[|months| - 1], c)
  }

  /** Totals over a concatenation are the sums of the parts' totals. */
  lemma {:induction false} SumAppend(a: seq<MonthSummary>, b: seq<MonthSummary>, c: Column)
    ensures Sum(a + b, c) == Sum(a, c) + Sum(b, c)
    decreases |b|
  {
    if b != [] {
      var b' := b[..|b| - 1];
      assert (a + b)[..|a + b| - 1] == a + b';
      SumAppend(a, b', c);
    } else {
      assert a + b == a;
    }
  }

  /** The quick-stats card: total revenue, margin and net income, and the
      number of months recorded. */
  datatype Totals = Totals(ricavi: Amount, margine: Amount, utileNetto: Amount, count: nat)

  /** The three `reduce` passes as one loop over the months, in order. */
  method Summarise(months: seq<MonthSummary>) returns (t: Totals)
    ensures t.ricavi == Sum(months, Revenue)
    ensures t.margine == Sum(months, Margin)
    ensures t.utileNetto == Sum(months, NetIncome)
    ensures t.count == |months|
  {
    var ricavi, margine, utileNetto := 0.0, 0.0, 0.0;
    var i := 0;
    while i < |months|
      invariant 0 <= i <= |months|
      invariant ricavi == Sum(months[..i], Revenue)
      invariant margine == Sum(months[..i], Margin)
      invariant utileNetto == Sum(months[..i], NetIncome)
    {
      assert months[..i + 1][..i] == months[..i];
      ricavi := ricavi + months[i].ricavi;
      margine := margine + months[i].margine;
      utileNetto := utileNetto + months[i].utileNetto;
      i := i + 1;
    }
    assert months[..i] == months;
    t := Totals(ricavi, margine, utileNetto, |months|);
  }
}

=== FILE: data_entry.dfy ===
/** The monthly-data entry form: its validation schema, the live margin
    calculation, the submit handler's warnings and payload, and the month and
    year pickers. */
module DataEntry {
  import opened Wrappers
  import opened Text
  import opened BusinessData

  /** The form's values. Each amount input stores `parseFloat(text) || 0`
      (`NumberOrZero`), so amounts are always numbers here. */
  datatype FormValues = FormValues(
    month: string,
    year: string,
    ricavi: Amount,
    costiDiretti: Amount,
    costiTotali: Amount,
    compensoImprenditore: Amount)

  /** The schema's fields, in declaration order. */
  datatype Field = Month | Year | Ricavi | CostiDiretti | CostiTotali | Compenso

  /** Whether `monthlyDataSchema` rejects field `f`: month and year must be
      non-empty strings, each amount must be at least 0. */
  predicate FailsOn(v: FormValues, f: Field)
  {
    match f
    case Month => |v.month| < 1
    case Year => |v.year| < 1
    case Ricavi => v.ricavi < 0.0
    case CostiDiretti => v.costiDiretti < 0.0
    case CostiTotali => v.costiTotali < 0.0
    case Compenso => v.compensoImprenditore < 0.0
  }

  /** The fields among `fields` that fail, in the order given. */
  function Failing(v: FormValues, fields: seq<Field>): (r: seq<Field>)
    ensures forall f :: f in r <==> f in fields && FailsOn(v, f)
    ensures (forall i, j | 0 <= i < j < |fields| :: fields[i] != fields[j]) ==>
              forall i, j | 0 <= i < j < |r| :: r[i] != r[j]
    ensures (forall i | 0 <= i < |fields| :: !FailsOn(v, fields[i])) ==> r == []
  {
    if fields == [] then []
    else (if FailsOn(v, fields[0]) then [fields[0]] else []) + Failing(v, fields[1..])
  }

  const SchemaFields: seq<Field> := [Month, Year, Ricavi, CostiDiretti, CostiTotali, Compenso]

  /** The schema's issues: exactly the failing fields, each once, in schema order. */
  function SchemaIssues(v: FormValues): (r: seq<Field>)
    ensures Month in r <==> v.month == ""
    ensures Year in r <==> v.year == ""
    ensures Ricavi in r <==> v.ricavi < 0.0
    ensures CostiDiretti in r <==> v.costiDiretti < 0.0
    ensures CostiTotali in r <==> v.costiTotali < 0.0
    ensures Compenso in r <==> v.compensoImprenditore < 0.0
    ensures forall i, j | 0 <= i < j < |r| :: r[i] != r[j]
  {
    var fs := SchemaFields;
    assert fs[0] == Month && fs[1] == Year && fs[2] == Ricavi;
    assert fs[3] == CostiDiretti && fs[4] == CostiTotali && fs[5] == Compenso;
    assert forall i, j | 0 <= i < j < |fs| :: fs[i] != fs[j];
    Failing(v, fs)
  }

  predicate Valid(v: FormValues)
  {
    SchemaIssues(v) == []
  }

  /** The schema accepts exactly a chosen period with four non-negative amounts. */
  lemma ValidIff(v: FormValues)
    ensures Valid(v) <==>
      && v.month != "" && v.year != ""
      && v.ricavi >= 0.0 && v.costiDiretti >= 0.0 && v.costiTotali >= 0.0 && v.compensoImprenditore >= 0.0
  {
    var r := SchemaIssues(v);
    if r != [] {
      assert r[0] in r;
    }
  }

  datatype Derived = Derived(margine: Amount, utileNetto: Amount)

  /** `calculateMargins` on possibly missing amounts (a missing amount counts
      as 0). Owner compensation is not an input: neither value depends on it. */
  function CalculateMargins(ricavi: Option<Amount>, costiDiretti: Option<Amount>, costiTotali: Option<Amount>): (d: Derived)
    ensures d.margine + costiDiretti.GetOr(0.0) == ricavi.GetOr(0.0)
    ensures d.utileNetto + costiTotali.GetOr(0.0) == ricavi.GetOr(0.0)
    ensures d.margine - d.utileNetto == costiTotali.GetOr(0.0) - costiDiretti.GetOr(0.0)
  {
    var r := ricavi.GetOr(0.0);
    Derived(r - costiDiretti.GetOr(0.0), r - costiTotali.GetOr(0.0))
  }

  datatype Warning = NegativeMargin | NegativeNetIncome

  /** What `handleSubmit` does with validated values: the warnings it shows,
      and the payload it always passes on. */
  datatype Submission = Submission(warnings: seq<Warning>, payload: MonthlyInput)

  function HandleSubmit(v: FormValues): (r: Submission)
    ensures NegativeMargin in r.warnings <==> v.ricavi < v.costiDiretti
    ensures NegativeNetIncome in r.warnings <==> v.ricavi < v.costiTotali
    ensures |r.warnings| <= 2
    ensures |r.warnings| == 2 ==> r.warnings == [NegativeMargin, NegativeNetIncome]
    ensures r.payload.month == v.month && r.payload.year == v.year
    ensures r.payload.ricavi == v.ricavi && r.payload.costiDiretti == v.costiDiretti
    ensures r.payload.costiTotali == v.costiTotali && r.payload.compensoImprenditore == v.compensoImprenditore
    ensures r.payload.margine + v.costiDiretti == v.ricavi
    ensures r.payload.utileNetto + v.costiTotali == v.ricavi
  {
    var d := CalculateMargins(Some(v.ricavi), Some(v.costiDiretti), Some(v.costiTotali));
    var warnings := (if d.margine < 0.0 then [NegativeMargin] else [])
                    + (if d.utileNetto < 0.0 then [NegativeNetIncome] else []);
    Submission(warnings, MonthlyInput(v.month, v.year, v.ricavi, v.costiDiretti, v.costiTotali,
                                      v.compensoImprenditore, d.margine, d.utileNetto))
  }

  /** Submitting the form: the resolver stops invalid values; valid ones
      reach `handleSubmit`, whose warnings never stop the submission. */
  function SubmitForm(v: FormValues): (r: Option<Submission>)
    ensures r.Some? <==> Valid(v)
    ensures r.Some? ==> r.value == HandleSubmit(v)
  {
    if Valid(v) then Some(HandleSubmit(v)) else None
  }

  // ---------------------------------------------------------------- pickers

  const MonthValues: seq<string> := ["1", "2", "3", "4", "5", "6", "7", "8", "9", "10", "11", "12"]

  const MonthLabels: seq<string> :=
    ["Gennaio", "Febbraio", "Marzo", "Aprile", "Maggio", "Giugno",
     "Luglio", "Agosto", "Settembre", "Ottobre", "Novembre", "Dicembre"]

  /** The month picker's option values are the texts of 1..12, in order. */
  lemma MonthValuesAreOneToTwelve()
    ensures |MonthValues| == 12 && |MonthLabels| == 12
    ensures forall i | 0 <= i < 12 :: MonthValues[i] == IntToString(i + 1)
    ensures forall i | 0 <= i < 12 :: ParseInt(MonthValues[i]) == Some(i + 1)
  {
    forall i | 0 <= i < 12 ensures MonthValues[i] == IntToString(i + 1) {
      if i < 9 {
        assert IntToString(i + 1) == [DigitChar(i + 1)];
      } else {
        assert NatToString(1) == "1";
      }
    }
    forall i | 0 <= i < 12 ensures ParseInt(MonthValues[i]) == Some(i + 1) {
      ParseIntRoundTrip(i + 1);
    }
  }

  /** The year picker: five consecutive years centred on the current one. */
  function YearOptions(currentYear: int): (r: seq<int>)
    ensures |r| == 5 && r[0] == currentYear - 2 && r[4] == currentYear + 2
    ensures forall i | 0 < i < |r| :: r[i] == r[i - 1] + 1
    ensures currentYear in r
  {
    var r := seq(5, i => currentYear - 2 + i);
    assert r[2] == currentYear;
    r
  }

  /** The form's starting values: no month, the current year, zero amounts. */
  function DefaultValues(currentYear: int): FormValues
  {
    FormValues("", IntToString(currentYear), 0.0, 0.0, 0.0, 0.0)
  }

  /** The untouched form fails on the month alone. */
  lemma DefaultNeedsMonth(currentYear: int)
    ensures SchemaIssues(DefaultValues(currentYear)) == [Month]
  {
    var v := DefaultValues(currentYear);
    assert Failing(v, SchemaFields[1..]) == [];
  }

  /** A period picked from the two pickers is stored as that period: the
      saved row has month `i + 1` and the picked year. */
  lemma PickedPeriodIsStored(s: AppState, store: Store, v: FormValues, i: nat, j: nat, currentYear: int, net: Network)
    requires i < 12 && j < 5
    requires v.month == MonthValues[i] && v.year == IntToString(YearOptions(currentYear)[j])
    requires s.selected.Some? && net.writeOk
    ensures var r := SaveMonthlyData(s, store, HandleSubmit(v).payload, net);
            && r.outcome == Done
            && r.store.monthly[|store.monthly|].month == i + 1
            && r.store.monthly[|store.monthly|].year == currentYear - 2 + j
  {
    MonthValuesAreOneToTwelve();
    ParseIntRoundTrip(YearOptions(currentYear)[j]);
  }
}

=== FILE: metric_card.dfy ===
/** The KPI card's advisory rules: the trend against the previous value, and
    the under-target badge versus the plain target line. */
module MetricCard {
  import opened Wrappers

  /** A JavaScript number produced by the change formula: a finite percentage,
      either infinity (a non-zero change over a previous value of 0) or NaN
      (0 over 0). */
  datatype Change = Finite(pct: real) | PlusInfinity | MinusInfinity | NotANumber

  /** `(value - previous) / previous * 100` under IEEE-754 division, with the
      rounding of finite results ignored. */
  function PercentChange(value: real, previous: real): (c: Change)
    ensures c.Finite? <==> previous != 0.0
    ensures c.Finite? ==> c.pct * previous == (value - previous) * 100.0
    ensures c == NotANumber <==> previous == 0.0 && value == 0.0
    ensures c == PlusInfinity <==> previous == 0.0 && value > 0.0
  {
    if previous != 0.0 then Finite((value - previous) / previous * 100.0)
    else if value > 0.0 then PlusInfinity
    else if value < 0.0 then MinusInfinity
    else NotANumber
  }

  datatype TrendKind = Positive | Negative | Neutral

  datatype Trend = Trend(kind: TrendKind, change: Change)

  /** `Math.abs(change) < 0.1`: false for both infinities and for NaN. */
  predicate Small(c: Change)
  {
    c.Finite? && -0.1 < c.pct < 0.1
  }

  /** `change > 0`: true for +Infinity, false for -Infinity and NaN. */
  predicate Above(c: Change)
  {
    c == PlusInfinity || (c.Finite? && c.pct > 0.0)
  }

  /** `getTrend`: no trend without a previous value; a change below 0.1% in
      size is neutral; otherwise positive when the change is above 0, and
      negative in every other case, NaN included. */
  function GetTrend(value: real, previous: Option<real>): (r: Option<Trend>)
    ensures r.None? <==> previous.None?
    ensures r.Some? ==> r.value.change == PercentChange(value, previous.value)
    ensures r.Some? ==> (r.value.kind == Neutral <==> Small(r.value.change))
    ensures r.Some? ==> (r.value.kind == Positive <==> !Small(r.value.change) && Above(r.value.change))
  {
    if previous.None? then None
    else
      var change := PercentChange(value, previous.value);
      if Small(change) then Some(Trend(Neutral, change))
      else Some(Trend(if Above(change) then Positive else Negative, change))
  }

  /** Against a positive previous value the trend is decided by a band of
      one thousandth of that value: at least that far above is positive, at
      least that far below is negative, strictly inside is neutral. */
  lemma {:induction false} TrendBandForPositivePrevious(value: real, previous: real)
    requires previous > 0.0
    ensures GetTrend(value, Some(previous)).value.kind == Positive <==> value >= previous + previous / 1000.0
    ensures GetTrend(value, Some(previous)).value.kind == Negative <==> value <= previous - previous / 1000.0
    ensures GetTrend(value, Some(previous)).value.kind == Neutral
        <==> previous - previous / 1000.0 < value < previous + previous / 1000.0
  {
    var pct := (value - previous) / previous * 100.0;
    assert pct * previous == (value - previous) * 100.0;
    ScaledBand(pct, previous, value - previous);
  }

  /** For `p > 0` and `pct * p == d * 100`: `pct` is at least 0.1 exactly
      when `d` is at least `p / 1000`, and symmetrically below. */
  lemma ScaledBand(pct: real, p: real, d: real)
    requires p > 0.0 && pct * p == d * 100.0
    ensures pct >= 0.1 <==> d >= p / 1000.0
    ensures pct <= -0.1 <==> d <= -(p / 1000.0)
  {
    ScaleKeepsOrder(pct, 0.1, p);
    ScaleKeepsOrder(-0.1, pct, p);
  }

  /** Multiplying by a positive factor keeps strict order, both ways. */
  lemma ScaleKeepsOrder(x: real, y: real, p: real)
    requires p > 0.0
    ensures x < y <==> x * p < y * p
  {
    if x < y {
      assert (y - x) * p > 0.0;
    }
    if x * p < y * p {
      assert (y - x) * p > 0.0;
    }
  }

  /** The two readings of the formula that do not follow the direction of
      the value: an unchanged value of 0 counts as negative (0 / 0 is NaN),
      and against a negative previous value a rise counts as negative. */
  lemma TrendAsWrittenMisreads()
    ensures GetTrend(0.0, Some(0.0)).value.kind == Negative
    ensures GetTrend(-50.0, Some(-100.0)).value.kind == Negative
  {
    assert PercentChange(-50.0, -100.0) == Finite(-50.0);
  }

  /** The trend as the card evidently means it: the change is taken relative
      to the size of the previous value, and a previous value of 0 yields
      neutral when the value stays 0 and the direction of the value otherwise. */
  function IntendedTrend(value: real, previous: Option<real>): (r: Option<TrendKind>)
    ensures r.None? <==> previous.None?
    ensures r == Some(Positive) ==> value > previous.value
    ensures r == Some(Negative) ==> value < previous.value
    ensures previous.Some? && value == previous.value ==> r == Some(Neutral)
  {
    if previous.None? then None
    else
      var p := previous.value;
      if p == 0.0 then
        Some(if value > 0.0 then Positive else if value < 0.0 then Negative else Neutral)
      else
        var size := if p < 0.0 then -p else p;
        var pct := (value - p) / size * 100.0;
        assert pct * size == (value - p) * 100.0;
        Some(if -0.1 < pct < 0.1 then Neutral else if pct > 0.0 then Positive else Negative)
  }

  /** Where the previous value is positive, the intended trend is the one the
      card computes. */
  lemma IntendedAgreesForPositivePrevious(value: real, previous: real)
    requires previous > 0.0
    ensures IntendedTrend(value, Some(previous)) == Some(GetTrend(value, Some(previous)).value.kind)
  {
  }

  /** The intended trend follows the value's direction whatever the previous
      value's sign: rising by more than a thousandth of the previous size is
      never negative, falling by more is never positive. */
  lemma {:induction false} IntendedTrendFollowsDirection(value: real, previous: real)
    ensures value > previous ==> IntendedTrend(value, Some(previous)) != Some(Negative)
    ensures value < previous ==> IntendedTrend(value, Some(previous)) != Some(Positive)
  {
  }

  // ----------------------------------------------------------------- target

  /** `isUnderTarget`: a target is given and the value is strictly below it. */
  predicate IsUnderTarget(value: real, target: Option<real>)
  {
    target.Some? && value < target.value
  }

  /** What the card shows about its target: the warning badge, the plain
      target line (guarded by a truthy target, so never for 0), or neither. */
  datatype TargetDisplay = TargetDisplay(badge: bool, line: bool)

  function ShowTarget(value: real, target: Option<real>): (d: TargetDisplay)
    ensures d.badge <==> target.Some? && value < target.value
    ensures d.line <==> target.Some? && target.value != 0.0 && value >= target.value
    ensures !(d.badge && d.line)
  {
    var under := IsUnderTarget(value, target);
    TargetDisplay(under, target.Some? && target.value != 0.0 && !under)
  }

  /** A non-zero target always shows exactly one of badge and line; no
      target shows neither; a target of 0 never shows the line and shows the
      badge only for a negative value. */
  lemma TargetDisplayCases(value: real, target: Option<real>)
    ensures target.Some? && target.value != 0.0 ==>
              ShowTarget(value, target).badge != ShowTarget(value, target).line
    ensures target.None? ==> ShowTarget(value, target) == TargetDisplay(false, false)
    ensures target == Some(0.0) ==> ShowTarget(value, target) == TargetDisplay(value < 0.0, false)
  {
  }

  /** What JSX renders in the slot after the badge. The guard
      `target && !isUnderTarget && <p>` evaluates to the number itself when
      the target is 0, and React writes a number child out as text. */
  datatype LineSlot = Nothing | StrayZero | TargetLine

  /** The slot as written: a target of 0 short-circuits to the number 0. */
  function LineSlotAsWritten(value: real, target: Option<real>): (r: LineSlot)
    ensures r == TargetLine <==> ShowTarget(value, target).line
  {
    if target.None? then Nothing
    else if target.value == 0.0 then StrayZero
    else if IsUnderTarget(value, target) then Nothing
    else TargetLine
  }

  /** A card with a target of 0 shows a stray "0", whatever its value. */
  lemma ZeroTargetRendersStrayZero(value: real)
    ensures LineSlotAsWritten(value, Some(0.0)) == StrayZero
  {
  }

  /** The slot as evidently intended: the target line or nothing. */
  function TargetLineSlot(value: real, target: Option<real>): (r: LineSlot)
    ensures r == TargetLine <==> ShowTarget(value, target).line
    ensures r != StrayZero
  {
    if ShowTarget(value, target).line then TargetLine else Nothing
  }

  /** The intended slot differs from the written one exactly for a target of 0. */
  lemma {:induction false} SlotsDifferOnlyAtZero(value: real, target: Option<real>)
    ensures TargetLineSlot(value, target) != LineSlotAsWritten(value, target) <==> target == Some(0.0)
  {
  }

  /** What one card shows, with the trend read the intended way. */
  datatype CardView = CardView(trend: Option<TrendKind>, target: TargetDisplay)

  function Card(value: real, previous: Option<real>, target: Option<real>): (v: CardView)
    ensures v.trend.None? <==> previous.None?
    ensures v.target.badge <==> IsUnderTarget(value, target)
    ensures v.trend == Some(Positive) ==> value > previous.value
    ensures v.trend == Some(Negative) ==> value < previous.value
  {
    CardView(IntendedTrend(value, previous), ShowTarget(value, target))
  }
}

=== FILE: monthly_table.dfy ===
/** The monthly-data table: inline editing of a row's four amounts (kept as
    text while editing), saving an edit through the hook's update with the
    edit-path formulas, deleting through the hook, and the period label. */
module MonthlyTable {
  import opened Wrappers
  import opened Text
  import opened BusinessData
  import opened DataEntry

  /** The four amount inputs of the row being edited, as typed. */
  datatype EditingData = EditingData(
    ricavi: string,
    costiDiretti: string,
    costiTotali: string,
    compensoImprenditore: string)

  const Blank := EditingData("", "", "", "")

  datatype TableState = TableState(
    editingId: Option<Id>,
    editing: EditingData,
    deleteConfirmId: Option<Id>)

  const InitialTable := TableState(None, Blank, None)

  /** A whole-unit amount: one `toString` writes without a fraction. */
  predicate IsWhole(x: real)
  {
    x == x.Floor as real
  }

  /** `handleEdit(row)`: edit that row, its amounts shown as `toString` text,
      which reads back as the row's own amount when that amount is whole. */
  function HandleEdit(t: TableState, row: MonthlyRecord): (r: TableState)
    ensures r.editingId == Some(row.id) && r.deleteConfirmId == t.deleteConfirmId
    ensures IsWhole(row.ricavi) ==> NumberOrZero(r.editing.ricavi) == row.ricavi
    ensures IsWhole(row.costiDiretti) ==> NumberOrZero(r.editing.costiDiretti) == row.costiDiretti
    ensures IsWhole(row.costiTotali) ==> NumberOrZero(r.editing.costiTotali) == row.costiTotali
    ensures IsWhole(row.compensoImprenditore) ==>
              NumberOrZero(r.editing.compensoImprenditore) == row.compensoImprenditore
  {
    WholeAmountsReadBack(row);
    t.(editingId := Some(row.id),
       editing := EditingData(ShowAmount(row.ricavi), ShowAmount(row.costiDiretti),
                              ShowAmount(row.costiTotali), ShowAmount(row.compensoImprenditore)))
  }

  /** Each whole-unit amount of `row` survives `toString` and `parseFloat(..) || 0`. */
  lemma WholeAmountsReadBack(row: MonthlyRecord)
    ensures IsWhole(row.ricavi) ==> NumberOrZero(ShowAmount(row.ricavi)) == row.ricavi
    ensures IsWhole(row.costiDiretti) ==> NumberOrZero(ShowAmount(row.costiDiretti)) == row.costiDiretti
    ensures IsWhole(row.costiTotali) ==> NumberOrZero(ShowAmount(row.costiTotali)) == row.costiTotali
    ensures IsWhole(row.compensoImprenditore) ==>
              NumberOrZero(ShowAmount(row.compensoImprenditore)) == row.compensoImprenditore
  {
    if IsWhole(row.ricavi) { ShowAmountRoundTrip(row.ricavi); }
    if IsWhole(row.costiDiretti) { ShowAmountRoundTrip(row.costiDiretti); }
    if IsWhole(row.costiTotali) { ShowAmountRoundTrip(row.costiTotali); }
    if IsWhole(row.compensoImprenditore) { ShowAmountRoundTrip(row.compensoImprenditore); }
  }

  /** `handleCancelEdit`: stop editing and blank all four inputs. */
  function HandleCancelEdit(t: TableState): (r: TableState)
    ensures r.editingId.None? && r.editing == Blank && r.deleteConfirmId == t.deleteConfirmId
  {
    t.(editingId := None, editing := Blank)
  }

  /** Cancelling returns the edit inputs to their initial values; only the
      delete dialog's state survives. */
  lemma CancelRestoresInitialEdit(t: TableState)
    ensures HandleCancelEdit(t) == InitialTable.(deleteConfirmId := t.deleteConfirmId)
    ensures HandleCancelEdit(InitialTable) == InitialTable
  {
  }

  /** The edit path's derived values: margin from revenue and direct costs,
      net income from margin and owner compensation. Total costs play no part. */
  function EditDerived(ricavi: Amount, costiDiretti: Amount, compensoImprenditore: Amount): (d: Derived)
    ensures d.margine + costiDiretti == ricavi
    ensures d.utileNetto + compensoImprenditore == d.margine
  {
    var margine := ricavi - costiDiretti;
    Derived(margine, margine - compensoImprenditore)
  }

  /** The update an edit of these four amounts sends: the amounts
      themselves plus both edit-path derived values. */
  function PatchOf(ricavi: Amount, costiDiretti: Amount, costiTotali: Amount, compenso: Amount): (p: MonthlyPatch)
    ensures EditShaped(p)
    ensures p.ricavi == Some(ricavi) && p.costiDiretti == Some(costiDiretti)
    ensures p.costiTotali == Some(costiTotali) && p.compensoImprenditore == Some(compenso)
  {
    var d := EditDerived(ricavi, costiDiretti, compenso);
    MonthlyPatch(Some(ricavi), Some(costiDiretti), Some(costiTotali), Some(compenso),
                 Some(d.margine), Some(d.utileNetto))
  }

  /** The update `handleSaveEdit` sends: every edited text read with
      `parseFloat(..) || 0`, plus both derived values. */
  function EditPatch(e: EditingData): (p: MonthlyPatch)
    ensures EditShaped(p)
    ensures p.ricavi == Some(NumberOrZero(e.ricavi))
    ensures p.costiDiretti == Some(NumberOrZero(e.costiDiretti))
    ensures p.costiTotali == Some(NumberOrZero(e.costiTotali))
    ensures p.compensoImprenditore == Some(NumberOrZero(e.compensoImprenditore))
  {
    PatchOf(NumberOrZero(e.ricavi), NumberOrZero(e.costiDiretti),
            NumberOrZero(e.costiTotali), NumberOrZero(e.compensoImprenditore))
  }

  /** The table's state together with the hook's, after a table event. */
  datatype TableStep = TableStep(table: TableState, hook: Step)

  /** `handleSaveEdit`: nothing without a row being edited; otherwise send
      the patch through `updateMonthlyData`. Editing stops only when the
      update succeeds; a failure is caught and leaves editing on. */
  function HandleSaveEdit(t: TableState, s: AppState, store: Store, net: Network): (r: TableStep)
    ensures t.editingId.None? ==> r == TableStep(t, Step(s, store, Skipped))
    ensures t.editingId.Some? ==>
      r.hook == UpdateMonthlyData(s, store, t.editingId.value, EditPatch(t.editing), net)
    ensures r.table.editingId.None? <==> t.editingId.None? || net.writeOk
    ensures r.table.editing == t.editing && r.table.deleteConfirmId == t.deleteConfirmId
    ensures t.editingId.Some? && !net.writeOk ==> r.table == t && r.hook.state == s && r.hook.store == store
  {
    if t.editingId.None? then TableStep(t, Step(s, store, Skipped))
    else
      var step := UpdateMonthlyData(s, store, t.editingId.value, EditPatch(t.editing), net);
      TableStep(if step.outcome == Done then t.(editingId := None) else t, step)
  }

  /** `handleDelete(id)`: delete through the hook and close the confirmation
      on success; a failure is caught and leaves the dialog open. */
  function HandleDelete(t: TableState, s: AppState, store: Store, id: Id, net: Network): (r: TableStep)
    ensures r.hook == DeleteMonthlyData(s, store, id, net)
    ensures net.writeOk ==> r.table == t.(deleteConfirmId := None)
    ensures !net.writeOk ==> r.table == t
  {
    var step := DeleteMonthlyData(s, store, id, net);
    TableStep(if step.outcome == Done then t.(deleteConfirmId := None) else t, step)
  }

  // -------------------------------------------------------------- properties

  /** The two net-income formulas: margins always agree, and net income
      agrees exactly when total costs are direct costs plus owner compensation. */
  lemma NetIncomePathsAgreeIff(ricavi: Amount, costiDiretti: Amount, costiTotali: Amount, compensoImprenditore: Amount)
    ensures EditDerived(ricavi, costiDiretti, compensoImprenditore).margine
            == CalculateMargins(Some(ricavi), Some(costiDiretti), Some(costiTotali)).margine
    ensures EditDerived(ricavi, costiDiretti, compensoImprenditore).utileNetto
            == CalculateMargins(Some(ricavi), Some(costiDiretti), Some(costiTotali)).utileNetto
        <==> costiTotali == costiDiretti + compensoImprenditore
  {
  }

  /** Total costs are stored by an edit but change neither derived value. */
  lemma EditIgnoresTotalCosts(e: EditingData, other: string)
    ensures EditPatch(e.(costiTotali := other)).margine == EditPatch(e).margine
    ensures EditPatch(e.(costiTotali := other)).utileNetto == EditPatch(e).utileNetto
  {
  }

  /** Saving an edit that changed nothing writes the row's own amounts back
      (for whole-unit amounts, which `toString` writes exactly), with the
      edit-path derived values. */
  lemma UnchangedEditWritesRowBack(t: TableState, row: MonthlyRecord)
    requires IsWhole(row.ricavi) && IsWhole(row.costiDiretti)
    requires IsWhole(row.costiTotali) && IsWhole(row.compensoImprenditore)
    ensures EditPatch(HandleEdit(t, row).editing)
         == PatchOf(row.ricavi, row.costiDiretti, row.costiTotali, row.compensoImprenditore)
  {
  }

  /** Starting an edit and cancelling it leaves the table as a plain cancel
      would: nothing of the row stays in the inputs. */
  lemma EditThenCancelLeavesNoTrace(t: TableState, row: MonthlyRecord)
    ensures HandleCancelEdit(HandleEdit(t, row)) == HandleCancelEdit(t)
  {
  }

  /** A row whose derived values follow the edit-path formulas. */
  predicate ObeysEditFormula(m: MonthlyRecord)
  {
    && m.margine == Some(m.ricavi - m.costiDiretti)
    && m.utileNetto == Some(m.ricavi - m.costiDiretti - m.compensoImprenditore)
  }

  /** A patch that sets all four amounts and derives both values by the
      edit-path formulas, as every `EditPatch` does. */
  predicate EditShaped(p: MonthlyPatch)
  {
    && p.ricavi.Some? && p.costiDiretti.Some? && p.costiTotali.Some? && p.compensoImprenditore.Some?
    && p.margine == Some(p.ricavi.value - p.costiDiretti.value)
    && p.utileNetto == Some(p.ricavi.value - p.costiDiretti.value - p.compensoImprenditore.value)
  }

  /** Applying an edit-shaped patch to any row leaves it obeying the formulas. */
  lemma PatchedObeys(m: MonthlyRecord, p: MonthlyPatch)
    requires EditShaped(p)
    ensures ObeysEditFormula(Patched(m, p))
  {
  }

  /** `after` is `before` with every row of id `id` brought in line with the
      edit-path formulas and every other row untouched. */
  predicate EditedRows(before: seq<MonthlyRecord>, after: seq<MonthlyRecord>, id: Id)
  {
    && |after| == |before|
    && forall k | 0 <= k < |after| ::
         if before[k].id == id then ObeysEditFormula(after[k]) else after[k] == before[k]
  }

  /** After a successful edit save every stored row with the edited id obeys
      the edit-path formulas, and every other row is untouched. */
  lemma SavedEditObeysEditFormula(t: TableState, s: AppState, store: Store, net: Network)
    requires t.editingId.Some? && net.writeOk
    ensures EditedRows(store.monthly, HandleSaveEdit(t, s, store, net).hook.store.monthly, t.editingId.value)
  {
    UpdateKeepsFormula(s, store, t.editingId.value, EditPatch(t.editing), net);
  }

  /** Updating with an edit-shaped patch makes every row with that id obey
      the formulas and leaves every other row as it was. */
  lemma UpdateKeepsFormula(s: AppState, store: Store, id: Id, p: MonthlyPatch, net: Network)
    requires EditShaped(p) && net.writeOk
    ensures EditedRows(store.monthly, UpdateMonthlyData(s, store, id, p, net).store.monthly, id)
  {
    var rows := UpdateMonthlyData(s, store, id, p, net).store.monthly;
    forall k | 0 <= k < |rows| && store.monthly[k].id == id
      ensures ObeysEditFormula(rows[k])
    {
      PatchedObeys(store.monthly[k], p);
    }
  }

  // ----------------------------------------------------------------- labels

  const MonthNames: seq<string> := ["Gen", "Feb", "Mar", "Apr", "Mag", "Giu", "Lug", "Ago", "Set", "Ott", "Nov", "Dic"]

  /** `monthNames[month - 1]`: defined for months 1..12 only (`undefined`,
      which renders as nothing, otherwise). */
  function MonthName(month: int): (r: Option<string>)
    ensures r.Some? <==> 1 <= month <= 12
    ensures r.Some? ==> |r.value| == 3
  {
    if 1 <= month <= 12 then Some(MonthNames[month - 1]) else None
  }

  /** Distinct months get distinct names. */
  lemma MonthNamesDistinct(m1: int, m2: int)
    requires 1 <= m1 <= 12 && 1 <= m2 <= 12 && m1 != m2
    ensures MonthName(m1) != MonthName(m2)
  {
  }

  /** The period cell: month name, a space, the year as `toString` writes it. */
  function PeriodLabel(month: int, year: int): (r: string)
    ensures 1 <= month <= 12 ==>
              |r| > 4 && r[..3] == MonthNames[month - 1] && r[3] == ' ' && r[4..] == IntToString(year)
    ensures !(1 <= month <= 12) ==> |r| > 1 && r[0] == ' ' && r[1..] == IntToString(year)
  {
    var name := MonthName(month).GetOr("");
    var r := name + " " + IntToString(year);
    assert r[..|name|] == name;
    assert r[|name| + 1..] == IntToString(year);
    r
  }

  /** For valid months the label determines the period: two labels are
      equal exactly when both month and year are. */
  lemma PeriodLabelsDistinct(m1: int, y1: int, m2: int, y2: int)
    requires 1 <= m1 <= 12 && 1 <= m2 <= 12
    ensures PeriodLabel(m1, y1) == PeriodLabel(m2, y2) <==> m1 == m2 && y1 == y2
  {
    var r1, r2 := PeriodLabel(m1, y1), PeriodLabel(m2, y2);
    if r1 == r2 {
      assert MonthNames[m1 - 1] == r1[..3] == MonthNames[m2 - 1];
      assert IntToString(y1) == r1[4..] == IntToString(y2);
      ParseIntRoundTrip(y1);
      ParseIntRoundTrip(y2);
    }
  }
}

=== FILE: sorting.dfy ===
/** The two query shapes the record store answers: select the rows matching a
    filter, and order them by a requested key. Ties under the key are left in
    whatever order the store produces; only the key order is promised. */
module Sorting {

  /** Every two elements are comparable. */
  ghost predicate Total<T(!new)>(le: (T, T) -> bool)
  {
    forall a, b :: le(a, b) || le(b, a)
  }

  ghost predicate Transitive<T(!new)>(le: (T, T) -> bool)
  {
    forall a, b, c :: le(a, b) && le(b, c) ==> le(a, c)
  }

  /** What an `order by` key induces on rows: total and transitive, but
      distinct rows may share a key. */
  ghost predicate TotalPreorder<T(!new)>(le: (T, T) -> bool)
  {
    Total(le) && Transitive(le)
  }

  predicate SortedBy<T>(xs: seq<T>, le: (T, T) -> bool)
  {
    forall i, j | 0 <= i < j < |xs| :: le(xs[i], xs[j])
  }

  /** Places `x` into the sorted `xs`. */
  function Insert<T(!new)>(x: T, xs: seq<T>, le: (T, T) -> bool): (r: seq<T>)
    requires TotalPreorder(le) && SortedBy(xs, le)
    ensures SortedBy(r, le)
    ensures multiset(r) == multiset(xs) + multiset{x}
  {
    if xs == [] then [x]
    else if le(x, xs[0]) then
      assert forall j | 0 <= j < |xs| :: le(x, xs[j]);
      [x] + xs
    else
      var rest := Insert(x, xs[1..], le);
      assert xs == [xs[0]] + xs[1..];
      assert le(xs[0], x);
      assert forall k | 0 <= k < |rest| :: rest[k] in multiset(xs[1..]) + multiset{x};
      assert forall k | 0 <= k < |rest| :: le(xs[0], rest[k]);
      [xs[0]] + rest
  }

  /** The rows of `xs` in `le` order: a sorted permutation. */
  function SortBy<T(!new)>(xs: seq<T>, le: (T, T) -> bool): (r: seq<T>)
    requires TotalPreorder(le)
    ensures SortedBy(r, le)
    ensures multiset(r) == multiset(xs)
  {
    if xs == [] then []
    else
      assert xs == [xs[0]] + xs[1..];
      Insert(xs[0], SortBy(xs[1..], le), le)
  }

  /** The rows of `xs` that satisfy `p`, in their original order. */
  function Filter<T(!new)>(xs: seq<T>, p: T -> bool): (r: seq<T>)
    ensures forall k | 0 <= k < |r| :: p(r[k])
    ensures forall y :: multiset(r)[y] == if p(y) then multiset(xs)[y] else 0
  {
    if xs == [] then []
    else
      assert xs == [xs[0]] + xs[1..];
      (if p(xs[0]) then [xs[0]] else []) + Filter(xs[1..], p)
  }

  /** No two positions of `xs` carry the same key. */
  predicate KeysDistinct<T>(xs: seq<T>, key: T -> nat)
  {
    forall i, j | 0 <= i < j < |xs| :: key(xs[i]) != key(xs[j])
  }

  /** Every key of `xs` is below `bound`. */
  predicate KeysBelow<T>(xs: seq<T>, key: T -> nat, bound: nat)
  {
    forall i | 0 <= i < |xs| :: key(xs[i]) < bound
  }

  /** Every row `Filter` keeps comes from its input. */
  lemma FilteredFrom<T(!new)>(xs: seq<T>, p: T -> bool, y: T)
    requires y in Filter(xs, p)
    ensures y in xs
  {
    assert multiset(Filter(xs, p))[y] > 0;
  }

  /** Putting a row with a fresh key below `bound` in front keeps the keys
      distinct and below `bound`. */
  lemma PrependKeeps<T>(x: T, rest: seq<T>, key: T -> nat, bound: nat)
    requires KeysDistinct(rest, key) && KeysBelow(rest, key, bound) && key(x) < bound
    requires forall k | 0 <= k < |rest| :: key(rest[k]) != key(x)
    ensures KeysDistinct([x] + rest, key) && KeysBelow([x] + rest, key, bound)
  {
    var r := [x] + rest;
    forall i, j | 0 <= i < j < |r| ensures key(r[i]) != key(r[j]) {
      assert r[j] == rest[j - 1];
      if i > 0 {
        assert r[i] == rest[i - 1];
      }
    }
  }

  /** Selecting rows keeps their keys distinct and below any bound they were below. */
  lemma {:induction false} FilterKeepsKeys<T(!new)>(xs: seq<T>, p: T -> bool, key: T -> nat, bound: nat)
    requires KeysDistinct(xs, key) && KeysBelow(xs, key, bound)
    ensures KeysDistinct(Filter(xs, p), key) && KeysBelow(Filter(xs, p), key, bound)
    decreases |xs|
  {
    if xs != [] {
      var tail := xs[1..];
      var rest := Filter(tail, p);
      assert KeysDistinct(tail, key) && KeysBelow(tail, key, bound);
      FilterKeepsKeys(tail, p, key, bound);
      if p(xs[0]) {
        forall k | 0 <= k < |rest| ensures key(rest[k]) != key(xs[0]) {
          FilteredFrom(tail, p, rest[k]);
          var l :| 0 <= l < |tail| && tail[l] == rest[k];
          assert xs[l + 1] == rest[k];
        }
        assert key(xs[0]) < bound;
        PrependKeeps(xs[0], rest, key, bound);
      }
      assert Filter(xs, p) == (if p(xs[0]) then [xs[0]] else []) + rest;
    }
  }
}

=== FILE: text.dfy ===
/** The JavaScript string primitives the forms rely on: `trim`, `includes`,
    `Number.prototype.toString`, `parseInt` and `parseFloat`, on strings of
    Unicode scalar values. */
module Text {
  import opened Wrappers

  /** ECMAScript WhiteSpace and LineTerminator code points: what `trim`,
      `parseInt` and `parseFloat` skip. */
  const Whitespace: set<char> := {
    '\t', '\n', '\U{000B}', '\U{000C}', '\r', ' ', '\U{00A0}', '\U{1680}',
    '\U{2000}', '\U{2001}', '\U{2002}', '\U{2003}', '\U{2004}', '\U{2005}',
    '\U{2006}', '\U{2007}', '\U{2008}', '\U{2009}', '\U{200A}',
    '\U{2028}', '\U{2029}', '\U{202F}', '\U{205F}', '\U{3000}', '\U{FEFF}'}

  predicate IsWhitespace(c: char)
  {
    c in Whitespace
  }

  predicate AllWhitespace(s: string)
  {
    forall k | 0 <= k < |s| :: IsWhitespace(s[k])
  }

  /** The number of whitespace chars `s` starts with. */
  function LeadingBlanks(s: string): (n: nat)
    ensures n <= |s|
    ensures forall k | 0 <= k < n :: IsWhitespace(s[k])
    ensures n == |s| || !IsWhitespace(s[n])
  {
    if |s| > 0 && IsWhitespace(s[0]) then 1 + LeadingBlanks(s[1..]) else 0
  }

  /** The end of `s[..j]` once its trailing whitespace is dropped. */
  function SkipBackward(s: string, j: nat): (n: nat)
    requires j <= |s|
    ensures n <= j
    ensures forall k | n <= k < j :: IsWhitespace(s[k])
    ensures n == 0 || !IsWhitespace(s[n - 1])
  {
    if j > 0 && IsWhitespace(s[j - 1]) then SkipBackward(s, j - 1) else j
  }

  /** Drops the leading whitespace of `s`. */
  function TrimStart(s: string): (r: string)
    ensures |r| <= |s| && r == s[|s| - |r|..]
    ensures forall k | 0 <= k < |s| - |r| :: IsWhitespace(s[k])
    ensures r == [] || !IsWhitespace(r[0])
  {
    s[LeadingBlanks(s)..]
  }

  /** Drops the trailing whitespace of `s`. */
  function TrimEnd(s: string): (r: string)
    ensures |r| <= |s| && r == s[..|r|]
    ensures forall k | |r| <= k < |s| :: IsWhitespace(s[k])
    ensures r == [] || !IsWhitespace(r[|r| - 1])
  {
    s[..SkipBackward(s, |s|)]
  }

  /** `String.prototype.trim`: the result is empty exactly when `s` is all
      whitespace, and otherwise starts and ends with a non-whitespace char. */
  function Trim(s: string): (r: string)
    ensures r == [] <==> AllWhitespace(s)
    ensures r != [] ==> !IsWhitespace(r[0]) && !IsWhitespace(r[|r| - 1])
    ensures |r| <= |s|
    ensures exists i, j | 0 <= i <= j <= |s| ::
              r == s[i..j] && AllWhitespace(s[..i]) && AllWhitespace(s[j..])
  {
    var t := TrimStart(s);
    var r := TrimEnd(t);
    assert r == [] ==> t == [];
    var i := |s| - |t|;
    var j := i + |r|;
    assert r == s[i..j];
    assert AllWhitespace(s[..i]);
    assert forall k | 0 <= k < |s| - j :: s[j..][k] == t[|r| + k];
    assert AllWhitespace(s[j..]);
    r
  }

  /** Trimming twice is trimming once. */
  lemma {:induction false} TrimIdempotent(s: string)
    ensures Trim(Trim(s)) == Trim(s)
  {
    var r := Trim(s);
    if r != [] {
      assert TrimStart(r) == r;
      assert TrimEnd(r) == r;
    }
  }

  /** `sub` occurs in `s` at position `i`. */
  predicate OccursAt(s: string, sub: string, i: int)
  {
    0 <= i <= |s| - |sub| && s[i..i + |sub|] == sub
  }

  /** `String.prototype.includes`. */
  function Contains(s: string, sub: string): (b: bool)
    ensures b <==> exists i :: OccursAt(s, sub, i)
    decreases |s|
  {
    if |sub| <= |s| && s[..|sub|] == sub then
      assert OccursAt(s, sub, 0);
      true
    else if |s| == 0 then
      assert forall i :: !OccursAt(s, sub, i);
      false
    else
      var b := Contains(s[1..], sub);
      assert forall i :: OccursAt(s[1..], sub, i) ==> OccursAt(s, sub, i + 1);
      assert forall i :: OccursAt(s, sub, i) && i > 0 ==> OccursAt(s[1..], sub, i - 1);
      b
  }

  predicate IsDigit(c: char)
  {
    '0' <= c <= '9'
  }

  predicate AllDigits(s: string)
  {
    forall k | 0 <= k < |s| :: IsDigit(s[k])
  }

  function DigitChar(d: nat): (c: char)
    requires d < 10
    ensures IsDigit(c)
  {
    ('0' as int + d) as char
  }

  function DigitValue(c: char): (d: nat)
    requires IsDigit(c)
    ensures d < 10 && DigitChar(d) == c
  {
    c as int - '0' as int
  }

  /** The number a string of decimal digits denotes. */
  function DigitsValue(ds: string): nat
    requires AllDigits(ds)
  {
    if ds == [] then 0 else DigitsValue(ds[..|ds| - 1]) * 10 + DigitValue(ds[|ds| - 1])
  }

  /** Decimal text of a natural number, without leading zeros. */
  function NatToString(n: nat): (r: string)
    ensures |r| > 0 && AllDigits(r)
    ensures r[0] != '0' || n == 0
  {
    if n < 10 then [DigitChar(n)] else NatToString(n / 10) + [DigitChar(n % 10)]
  }

  lemma {:induction false} NatToStringValue(n: nat)
    ensures DigitsValue(NatToString(n)) == n
    decreases n
  {
    var s := NatToString(n);
    if n < 10 {
      assert s[..0] == [];
    } else {
      assert s[..|s| - 1] == NatToString(n / 10);
      NatToStringValue(n / 10);
    }
  }

  /** `Number.prototype.toString` of an integer below 10^21 in magnitude. */
  function IntToString(i: int): (r: string)
    ensures |r| > 0
  {
    if i < 0 then "-" + NatToString(-i) else NatToString(i)
  }

  /** The number of leading decimal digits of `s`. */
  function DigitRun(s: string): (n: nat)
    ensures n <= |s|
    ensures forall k | 0 <= k < n :: IsDigit(s[k])
    ensures n == |s| || !IsDigit(s[n])
  {
    if |s| > 0 && IsDigit(s[0]) then 1 + DigitRun(s[1..]) else 0
  }

  /** Splits an optional `+` or `-` off the front of `s`; the flag says the
      sign was `-`. */
  function SplitSign(s: string): (bool, string)
  {
    if |s| > 0 && s[0] == '-' then (true, s[1..])
    else if |s| > 0 && s[0] == '+' then (false, s[1..])
    else (false, s)
  }

  /** `parseInt(s)` on decimal text: whitespace, an optional sign, then the
      longest run of digits; `None` stands for NaN. */
  function ParseInt(s: string): Option<int>
  {
    var (negative, u) := SplitSign(s[LeadingBlanks(s)..]);
    var n := DigitRun(u);
    if n == 0 then None
    else
      var magnitude: int := DigitsValue(u[..n]);
      Some(if negative then -magnitude else magnitude)
  }

  /** The digits after a leading `.` of `s`, if `s` starts with one. */
  function FractionDigits(s: string): (f: string)
    ensures AllDigits(f)
    ensures |s| > 0 && s[0] == '.' ==> |f| < |s| && f == s[1..1 + |f|]
    ensures !(|s| > 0 && s[0] == '.') ==> f == ""
  {
    if |s| > 0 && s[0] == '.' then s[1..][..DigitRun(s[1..])] else ""
  }

  /** The value of the fraction digits `ds` written after a decimal point:
      at least 0 and below 1. */
  function FractionValue(ds: string): (x: real)
    requires AllDigits(ds)
    ensures 0.0 <= x < 1.0
    ensures ds == [] ==> x == 0.0
  {
    if ds == [] then 0.0 else (DigitValue(ds[0]) as real + FractionValue(ds[1..])) / 10.0
  }

  /** The unsigned number at the front of `u`: integer digits, then an
      optional `.` and fraction digits; at least one digit must be present,
      otherwise NaN (`None`). */
  function UnsignedDecimal(u: string): Option<real>
  {
    var n := DigitRun(u);
    var f := FractionDigits(u[n..]);
    if n + |f| == 0 then None
    else Some(DigitsValue(u[..n]) as real + FractionValue(f))
  }

  /** `parseFloat(s)`: whitespace, an optional sign, then an unsigned number. */
  function ParseFloat(s: string): Option<real>
  {
    var (negative, u) := SplitSign(s[LeadingBlanks(s)..]);
    match UnsignedDecimal(u)
    case None => None
    case Some(m) => Some(if negative then -m else m)
  }

  /** `parseFloat(s) || 0`: NaN (and zero) become 0. */
  function NumberOrZero(s: string): (x: real)
    ensures ParseFloat(s).None? ==> x == 0.0
    ensures ParseFloat(s).Some? ==> x == ParseFloat(s).value
  {
    ParseFloat(s).GetOr(0.0)
  }

  /** The decimal digits of a fraction `f` in [0, 1), at most `fuel` of them. */
  function FractionText(f: real, fuel: nat): (r: string)
    requires 0.0 <= f < 1.0
    ensures AllDigits(r) && |r| <= fuel
    decreases fuel
  {
    if fuel == 0 || f == 0.0 then ""
    else
      var d := (f * 10.0).Floor;
      [DigitChar(d as nat)] + FractionText(f * 10.0 - d as real, fuel - 1)
  }

  /** `Number.prototype.toString` for an amount: integral amounts are written
      exactly; other amounts as integer part, `.`, and up to 20 fraction digits. */
  function ShowAmount(x: real): string
  {
    if x == x.Floor as real then IntToString(x.Floor)
    else
      var a := if x < 0.0 then -x else x;
      (if x < 0.0 then "-" else "") + NatToString(a.Floor as nat) + "." + FractionText(a - a.Floor as real, 20)
  }

  /** On a string of digits the digit run is the whole string. */
  lemma {:induction false} DigitRunAll(s: string)
    requires AllDigits(s)
    ensures DigitRun(s) == |s|
  {
    if |s| > 0 {
      assert AllDigits(s[1..]);
      DigitRunAll(s[1..]);
    }
  }

  /** Nothing of an all-whitespace string survives `TrimStart`. */
  lemma {:induction false} TrimStartBlank(s: string)
    requires AllWhitespace(s)
    ensures TrimStart(s) == []
  {
  }

  /** A string that starts with a non-whitespace char is its own `TrimStart`. */
  lemma {:induction false} NoLeadingBlank(s: string)
    requires |s| > 0 && !IsWhitespace(s[0])
    ensures LeadingBlanks(s) == 0
  {
  }

  /** Neither a digit, a minus sign nor a decimal point is whitespace. */
  lemma {:induction false} DigitOrMinusNotBlank(c: char)
    requires c == '-' || c == '.' || IsDigit(c)
    ensures !IsWhitespace(c)
  {
    assert c as int == 45 || c as int == 46 || 48 <= c as int <= 57;
  }

  /** The text of an integer starts with a sign or a digit, so nothing of it
      is skipped as whitespace, and its sign splits off cleanly. */
  lemma {:induction false} IntToStringShape(i: int)
    ensures LeadingBlanks(IntToString(i)) == 0
    ensures SplitSign(IntToString(i)) == (i < 0, NatToString(if i < 0 then -i else i))
  {
    var s := IntToString(i);
    assert s[0] == '-' || IsDigit(s[0]);
    DigitOrMinusNotBlank(s[0]);
    NoLeadingBlank(s);
    if i < 0 {
      assert s[1..] == NatToString(-i);
    } else {
      assert s[0] != '+' && s[0] != '-';
    }
  }

  /** `parseInt` reads back the text `toString` writes for an integer. */
  lemma {:induction false} ParseIntRoundTrip(i: int)
    ensures ParseInt(IntToString(i)) == Some(i)
  {
    IntToStringShape(i);
    var m: nat := if i < 0 then -i else i;
    DigitRunAll(NatToString(m));
    NatToStringValue(m);
    var s := NatToString(m);
    assert s[..|s|] == s;
  }

  /** `parseFloat` reads back the text `toString` writes for an integer. */
  lemma {:induction false} ParseFloatRoundTrip(i: int)
    ensures ParseFloat(IntToString(i)) == Some(i as real)
  {
    IntToStringShape(i);
    var m: nat := if i < 0 then -i else i;
    DigitRunAll(NatToString(m));
    NatToStringValue(m);
    var s := NatToString(m);
    assert s[..|s|] == s;
    assert s[|s|..] == [];
    assert FractionDigits(s[|s|..]) == "";
  }

  /** An integral amount survives `toString` followed by `parseFloat(..) || 0`. */
  lemma {:induction false} ShowAmountRoundTrip(x: real)
    requires x == x.Floor as real
    ensures NumberOrZero(ShowAmount(x)) == x
  {
    ParseFloatRoundTrip(x.Floor);
  }

  /** An empty or all-whitespace field parses to NaN, hence to 0. */
  lemma {:induction false} BlankIsZero(s: string)
    requires AllWhitespace(s)
    ensures ParseFloat(s) == None && ParseInt(s) == None
    ensures NumberOrZero(s) == 0.0
  {
    TrimStartBlank(s);
    var t := s[LeadingBlanks(s)..];
    assert SplitSign(t) == (false, "");
    assert DigitRun("") == 0;
    assert FractionDigits("") == "";
  }

  /** The digit run of digits followed by a non-digit is the digits. */
  lemma {:induction false} DigitRunPrefix(ds: string, tail: string)
    requires AllDigits(ds) && (tail == [] || !IsDigit(tail[0]))
    ensures DigitRun(ds + tail) == |ds|
    decreases |ds|
  {
    if ds == [] {
      assert ds + tail == tail;
    } else {
      assert (ds + tail)[1..] == ds[1..] + tail;
      assert AllDigits(ds[1..]);
      DigitRunPrefix(ds[1..], tail);
    }
  }

  /** Text that starts with a digit or `.` is read from its first char, unsigned. */
  lemma {:induction false} PlainStart(s: string)
    requires |s| > 0 && (IsDigit(s[0]) || s[0] == '.')
    ensures LeadingBlanks(s) == 0 && SplitSign(s) == (false, s)
  {
    DigitOrMinusNotBlank(s[0]);
    NoLeadingBlank(s);
  }

  /** `parseFloat` of text with a plain start is the unsigned number there. */
  lemma {:induction false} PlainParseFloat(s: string)
    requires |s| > 0 && (IsDigit(s[0]) || s[0] == '.')
    ensures ParseFloat(s) == UnsignedDecimal(s)
  {
    PlainStart(s);
    assert s[0..] == s;
  }

  /** `parseInt` reads the leading digits and ignores whatever follows them. */
  lemma {:induction false} ParseIntReadsDigitPrefix(ds: string, tail: string)
    requires |ds| > 0 && AllDigits(ds) && (tail == [] || !IsDigit(tail[0]))
    ensures ParseInt(ds + tail) == Some(DigitsValue(ds))
  {
    var s := ds + tail;
    PlainStart(s);
    assert s[0..] == s;
    DigitRunPrefix(ds, tail);
    assert s[..|ds|] == ds;
  }

  /** `parseFloat` of text with a plain start is its integer digits
      `s[..n]` plus its fraction digits `f`. */
  lemma {:induction false} ParseFloatOfParts(s: string, n: nat, f: string, x: real)
    requires |s| > 0 && (IsDigit(s[0]) || s[0] == '.')
    requires n <= |s| && DigitRun(s) == n && FractionDigits(s[n..]) == f && n + |f| > 0
    requires x == DigitsValue(s[..n]) as real + FractionValue(f)
    ensures ParseFloat(s) == Some(x)
  {
    UnsignedOfParts(s, n, f, x);
    PlainParseFloatIs(s, x);
  }

  lemma {:induction false} UnsignedOfParts(u: string, n: nat, f: string, x: real)
    requires n <= |u| && DigitRun(u) == n && FractionDigits(u[n..]) == f && n + |f| > 0
    requires x == DigitsValue(u[..n]) as real + FractionValue(f)
    ensures UnsignedDecimal(u) == Some(x)
  {
  }

  lemma {:induction false} PlainParseFloatIs(s: string, x: real)
    requires |s| > 0 && (IsDigit(s[0]) || s[0] == '.')
    requires UnsignedDecimal(s) == Some(x)
    ensures ParseFloat(s) == Some(x)
  {
    PlainParseFloat(s);
  }

  /** A point followed by digits is all fraction. */
  lemma {:induction false} PointThenDigits(b: string)
    requires AllDigits(b)
    ensures FractionDigits("." + b) == b
  {
    var rest := "." + b;
    assert rest[1..] == b;
    DigitRunAll(b);
    assert b[..|b|] == b;
  }

  /** `parseFloat` of digits, a point and digits is the whole part plus the
      fraction, when at least one digit is present. */
  lemma {:induction false} ParseFloatDecimal(a: string, b: string)
    requires AllDigits(a) && AllDigits(b) && |a| + |b| > 0
    ensures ParseFloat(a + "." + b) == Some(DigitsValue(a) as real + FractionValue(b))
  {
    DecimalShape(a, b);
    DecimalOfShape(a + "." + b, a, b);
  }

  /** Where the digit runs of `a + "." + b` start and end. */
  lemma {:induction false} DecimalShape(a: string, b: string)
    requires AllDigits(a) && AllDigits(b) && |a| + |b| > 0
    ensures var s := a + "." + b;
      |s| > 0 && (IsDigit(s[0]) || s[0] == '.') &&
      DigitRun(s) == |a| <= |s| && FractionDigits(s[|a|..]) == b && s[..|a|] == a
  {
    var s := a + "." + b;
    assert s == a + ("." + b);
    DigitRunPrefix(a, "." + b);
    PointThenDigits(b);
    assert s[|a|..] == "." + b;
    assert s[..|a|] == a;
  }

  lemma {:induction false} DecimalOfShape(s: string, a: string, b: string)
    requires AllDigits(a) && AllDigits(b) && |a| + |b| > 0
    requires |s| > 0 && (IsDigit(s[0]) || s[0] == '.')
    requires DigitRun(s) == |a| <= |s| && FractionDigits(s[|a|..]) == b && s[..|a|] == a
    ensures ParseFloat(s) == Some(DigitsValue(a) as real + FractionValue(b))
  {
    ParseFloatOfParts(s, |a|, b, DigitsValue(a) as real + FractionValue(b));
  }

  /** `parseFloat` stops at the first char that cannot continue the number:
      `1e3` reads as 1, since no exponent is read. */
  lemma {:induction false} ExponentNotRead()
    ensures ParseFloat("1e3") == Some(1.0)
  {
    var s := "1e3";
    DigitRunPrefix("1", "e3");
    assert s == "1" + "e3";
    assert s[1..] == "e3";
    assert s[..1] == "1";
    ParseFloatOfParts(s, 1, "", 1.0);
  }
}

=== FILE: wrappers.dfy ===
/** Optional values, standing in for the source's `undefined` / `null` and for
    JavaScript's NaN where a parse can fail. */
module Wrappers {

  datatype Option<+T> = None | Some(value: T) {

    /** The value, or `default` when absent. */
    function GetOr(default: T): T
    {
      match this
      case Some(v) => v
      case None => default
    }
  }
}
